=== FILE: README.md ===
# GeometryAlgorithms kernel in Dafny

This project models the geometry kernel of GeometryAlgorithms:

- the tolerant scalar comparator (`IsEqual`, `_xor`);
- fixed-dimension vectors and points, with their zero-snapping arithmetic;
- the dot and cross products;
- the signed areas and the seven-way `Orientation2d` predicate;
- the lexicographic point order;
- the `Line` and `Plane` value types;
- the monotone-chain 2-D convex hull (`HalfHull`, `ConvexHull2D`).

Coordinates are exact `real`s. The tolerance `EPS` (`100 * epsilon` of the scalar type in the C++ code) is an abstract constant in `(0, 0.001]`, so every proof holds for any such tolerance. Exceptions become `Result` values (`Failure(RuntimeError(..))`, `Failure(OutOfRange(..))`) carrying the message the C++ code throws.

Modules, one per header:

| module | file | models |
|---|---|---|
| `Tolerance` | `tolerance.dfy` | `inc/math/Math.hpp` |
| `Wrappers` | `wrappers.dfy` | the thrown exceptions |
| `Vectors` | `vector.dfy` | `inc/math/Vector.hpp`, `inc/math/Point.hpp` |
| `GeomUtils` | `geom_utils.dfy` | `inc/math/GeomUtils.hpp` |
| `Lines` | `line.dfy` | `inc/math/Line.hpp` |
| `Planes` | `plane.dfy` | `inc/math/Plane.hpp` |
| `ConvexHull` | `convex_hull.dfy` | `inc/alg/ConvexHull.hpp` |

Every vector operator except `v - s` (subtracting a scalar) snaps a coordinate within `EPS` of zero before it computes. For example, `a + b` yields `b` when `a` is near zero. Each snapped operator (`Add`, `Sub`, `Neg`, `Scale`, `AddScalar`) is stated two ways:

- it agrees exactly with the plain arithmetic (`a + b`, `a - b`, `-a`, `a * s`, `a + s`) on every coordinate where no operand is near zero;
- elsewhere it stays within `EPS` of the exact value, or within `EPS * abs(s)` for `v * s`.

`Add` and `Sub` are also compared with the exact vector operators `Plus` and `Minus`.

Snapping an exact zero to zero changes nothing, so `+` and `-` are also exact when each operand is exactly zero or not near zero (`SnapsExactly`). A point is called unsnapped when all its coordinates are like that: the origin and `(1,0)` are, `(EPS/2, 1)` is not.

Where the code and its usual description differ, the model follows the code:

- `GetDir` is `dest - origin` and is not normalised. `tests/Test_Line.cpp:15-23` expects a unit vector and is stale.
- `ConvexHull2D` returns the closed polygon: the first hull point is repeated at the end. A square plus one interior point gives five entries, not four.
- `GetIntersection` moves along `a` by `|t|`. For segments that cross by more than the tolerance, `t <= 0`, so `|t| = -t`, which is the meeting point. The only caller checks `Intersects` first (`inc/viz/Window.h:104-105`). `Intersects` also accepts segments that only touch within `EPS`. For those, `t` can be slightly positive, and the result is then reflected to the other side of `a.origin`.

## Model

| member | source | states |
|---|---|---|
| `Tolerance.IsEqualBand` | inc/math/Math.hpp:12-15 | `IsEqual(x, y)` holds exactly when `x` lies in the open band `(y - EPS, y + EPS)`; this lemma carries the contract of `Tolerance.IsEqual` |
| `Tolerance.IsEqualSymmetric` | inc/math/Math.hpp:13-14 | the comparator does not depend on the order of its arguments |
| `Tolerance.IsEqualNotTransitive` | inc/math/Math.hpp:13-14 | `0 ~ EPS/2` and `EPS/2 ~ EPS`, but not `0 ~ EPS`, so the comparator is not an equivalence |
| `Tolerance.IsEqualExamples` | tests/Test_Math.cpp:5-9 | half a tolerance apart is equal; two tolerances apart is not |
| `Tolerance.Xor` | inc/math/Math.hpp:16-18 | `_xor(a, b)` holds exactly when `a != b` |
| `Vectors.Zero` | inc/math/Vector.hpp:28 | the default vector has the requested dimension and every coordinate exactly zero |
| `Vectors.At` | inc/math/Vector.hpp:105-109 | indexing succeeds with the stored coordinate below the dimension, else fails with `OutOfRange("Vector index out of range")` |
| `Vectors.AtExamples` | tests/Test_Vector.cpp:157-159 | index 2 of a 3-vector is its `z`; index 3 is out of range |
| `Vectors.AllPairsEqual` | inc/math/Vector.hpp:36-40 | vector `==` holds exactly when every pair of coordinates is tolerantly equal; `Vectors.Eq` is this predicate on the coordinate sequences |
| `Vectors.AllEqualTo` | inc/math/Vector.hpp:42-46 | comparing a vector with a scalar holds exactly when every coordinate is tolerantly equal to the scalar; `Vectors.EqScalar` is this predicate on the coordinates |
| `Vectors.EqReflexiveSymmetric` | inc/math/Vector.hpp:36-54 | vector `==` is reflexive and symmetric, and `!=` is its negation |
| `Vectors.EqNotTransitive` | inc/math/Vector.hpp:36-40 | vector `==` is not transitive |
| `Vectors.EqExamples` | tests/Test_Vector.cpp:46-62 | a vector built from `x, y` equals one built from the array; vectors differing by 1 in `z` are unequal |
| `Vectors.SnapAdd` | inc/math/Vector.hpp:60 | a coordinate of `a + b` is within tolerance of the exact sum, and is exact when neither operand is near zero |
| `Vectors.SnapSub` | inc/math/Vector.hpp:76 | a coordinate of `a - b` is within tolerance of the exact difference, and is exact when neither operand is near zero |
| `Vectors.SnapExactOnZeros` | inc/math/Vector.hpp:60-76 | a coordinate of `a + b` or `a - b` is also exact when each operand is exactly zero or not near zero, because snapping leaves an exact zero where it is |
| `Vectors.SnapNeg` | inc/math/Vector.hpp:91 | a coordinate of `-a` is within tolerance of `-a`, is exactly zero iff `a` is near zero, and is exactly `-a` otherwise |
| `Vectors.SnapScale` | inc/math/Vector.hpp:100 | a coordinate of `a * s` is within `EPS * abs(s)` of the exact product: zero when `a` is near zero, exact otherwise |
| `Vectors.SnapAddScalar` | inc/math/Vector.hpp:68 | a coordinate of `a + s` is within tolerance of the exact sum, and is exact when `a` is not near zero |
| `Vectors.Add` | inc/math/Vector.hpp:56-62 | `a + b` keeps the dimension, is tolerantly equal to the exact sum, and is exact on coordinates where neither operand is near zero |
| `Vectors.Sub` | inc/math/Vector.hpp:72-78 | `a - b` keeps the dimension, is tolerantly equal to the exact difference, and is exact on coordinates where neither operand is near zero |
| `Vectors.Neg` | inc/math/Vector.hpp:88-93 | every coordinate of `-v` is within tolerance of the negated one, is zero exactly where `v`'s coordinate is near zero, and is exactly the negated coordinate everywhere else |
| `Vectors.Scale` | inc/math/Vector.hpp:95-103 | every coordinate of `v * s` is within `EPS * abs(s)` of the exact product; near-zero coordinates become zero, and every other coordinate is exactly `a * s` |
| `Vectors.AddScalar` | inc/math/Vector.hpp:64-70 | every coordinate of `v + s` is within tolerance of the exact sum, and is exactly `a + s` where `a` is not near zero |
| `Vectors.SubScalar` | inc/math/Vector.hpp:80-86 | adding `s` back to every coordinate of `v - s` gives `v`; there is no snapping here |
| `Vectors.ArithmeticExamples` | tests/Test_Vector.cpp:87-103 | the test table: `(1,2,3)+(3,4,5) = (4,6,8)`, `(1,2,3)-(3,4,5) = (-2,-2,-2)`, `-(3,4,5) = (-3,-4,-5)` |
| `Vectors.AddZeroIdentity` | inc/math/Vector.hpp:56-62 | adding the zero vector on the left returns `v` exactly; on the right, tolerantly |
| `Vectors.AddNotTolerantlyCommutative` | inc/math/Vector.hpp:60 | snapping makes `+` order-dependent: two near-zero opposite coordinates give results that are not tolerantly equal |
| `Vectors.DoubleNegation` | inc/math/Vector.hpp:88-93 | `-(-v)` is tolerantly `v`, and exactly `v` when no coordinate is near zero |
| `Vectors.AddNegationIsZero` | inc/math/Vector.hpp:56-62 | `v + (-v)` is exactly the zero vector |
| `Vectors.SubSelfIsZero` | inc/math/Vector.hpp:72-78 | `v - v` compares equal to the scalar 0 |
| `Vectors.ScaleByOne` | inc/math/Vector.hpp:95-103 | `v * 1` is tolerantly `v` |
| `Vectors.DotSymmetric` | inc/math/Vector.hpp:154-162 | `Dot(a, b) == Dot(b, a)`; with `Vectors.DotSelf` and `Vectors.Dot3` this carries the contract of `Vectors.Dot` |
| `Vectors.DotSelf` | inc/math/Vector.hpp:154-162 | `Dot(v, v)` is non-negative and zero exactly for the all-zero vector |
| `Vectors.Dot3` | inc/math/Vector.hpp:154-162 | the loop of `Dot` over three coordinates is `ax*bx + ay*by + az*bz` |
| `Vectors.DotExamples` | tests/Test_Vector.cpp:125-139 | `Dot((5,3),(2,8)) = 34` and orthogonal unit vectors give 0 |
| `Vectors.Cross2DProperties` | inc/math/Vector.hpp:179-181 | `Cross2D` is antisymmetric, vanishes on equal arguments, and is 1 on `(1,0),(0,1)`; this lemma carries the contract of `Vectors.Cross2D` |
| `Vectors.Cross3DProperties` | inc/math/Vector.hpp:183-189 | `Cross3D(a, b)` is orthogonal to `a` and to `b`, is negated by swapping its arguments, and maps `x, y` to `z`; this lemma carries the contract of `Vectors.Cross3D` |
| `Vectors.Normalise` | inc/math/Vector.hpp:137-150 | fails with "Tried to normalize a vector with zero norm" iff the norm is within tolerance of 0; otherwise it returns a vector of squared norm 1 that is parallel to `v`, since each coordinate times the norm gives `v`'s |
| `Vectors.ZeroCannotBeNormalised` | tests/Test_Vector.cpp:82-86 | normalising the zero vector fails |
| `GeomUtils.Coincident2dProperties` | inc/math/GeomUtils.hpp:52-66 | two 2-D vectors are coincident iff their cross product lies in `(-2 EPS, 2 EPS)`, that is iff `Area2d` is within tolerance of zero; coincidence is symmetric, and every exact multiple of a vector is coincident with it. This lemma carries the contract of `GeomUtils.Coincident2d` and `GeomUtils.Area2d` |
| `GeomUtils.Area3d` | inc/math/GeomUtils.hpp:57-60 | the 3-D area is non-negative, and four times its square is the squared norm of the cross product |
| `GeomUtils.Coincident3d` | inc/math/GeomUtils.hpp:68-72 | two 3-D vectors are coincident iff the squared norm of their cross product is below `4 EPS^2` |
| `GeomUtils.AreaExamples` | tests/Test_GeomUtils.cpp:4-40 | the test table for `Area2d` and `Coincident2d`, and the cross products behind `Coincident3d` |
| `GeomUtils.Area3dExample` | tests/Test_GeomUtils.cpp:11-16 | the triangle on `(1,2,3)` and `(4,5,6)` has `4 area^2 == 54`, so its area is `sqrt(54) / 2` |
| `GeomUtils.Coincident3dExamples` | tests/Test_GeomUtils.cpp:30-40 | `(1,2,3),(2,4,6)` are coincident; `(1,2,3),(2,4,7)` are not |
| `GeomUtils.SnapToZero` | inc/math/GeomUtils.hpp:84-86 | the snapped area is negative iff the area is at most `-EPS`, and positive iff it is at least `EPS` |
| `GeomUtils.Orientation2d` | inc/math/GeomUtils.hpp:74-100 | each of the seven outcomes, characterised by an iff. ORIGIN iff `c ~ a`; DESTINATION iff `c ~ b` but not `c ~ a`; NEGATIVE/POSITIVE iff `c` is apart from both ends and the area is `<= -EPS` / `>= EPS`; otherwise BEHIND iff `Dot(ab, ac) < 0`, BEYOND iff `len(ab) < len(ac)`, and IN_INTERVAL in the remaining case |
| `GeomUtils.OrientationOfEndpoints` | inc/math/GeomUtils.hpp:76-79 | `a` classifies as ORIGIN; `b` classifies as DESTINATION, or as ORIGIN when `b ~ a` |
| `GeomUtils.OrientationExamplePositive` | tests/Test_GeomUtils.cpp:42-48 | `(1,1)` is POSITIVE against `(0,0)->(1,0)` |
| `GeomUtils.OrientationExampleNegative` | tests/Test_GeomUtils.cpp:50-56 | `(1,-1)` is NEGATIVE against `(0,0)->(1,0)` |
| `GeomUtils.OrientationExampleBeyond` | tests/Test_GeomUtils.cpp:58-64 | `(2,0)` is BEYOND `(0,0)->(1,0)` |
| `GeomUtils.OrientationExampleBehind` | tests/Test_GeomUtils.cpp:66-72 | `(-1,0)` is BEHIND `(0,0)->(1,0)` |
| `GeomUtils.OrientationExampleInInterval` | tests/Test_GeomUtils.cpp:74-80 | `(1,0)` is IN_INTERVAL of `(0,0)->(2,0)` |
| `GeomUtils.OrientationExamplesEndpoints` | tests/Test_GeomUtils.cpp:82-96 | the endpoints classify as ORIGIN and DESTINATION |
| `GeomUtils.SwapEndpointsFlipsTurn` | inc/math/GeomUtils.hpp:81-91 | reversing the segment turns POSITIVE into NEGATIVE and back (for unsnapped coordinates) |
| `GeomUtils.TurnAreaSwap` | inc/math/GeomUtils.hpp:81-84 | reversing the segment negates the signed area (for unsnapped coordinates) |
| `GeomUtils.ToleranceLexLessBasics` | inc/math/GeomUtils.hpp:104-106 | the sort comparator is irreflexive, and on equal `x` it orders by `y` |
| `GeomUtils.ToleranceLexLessNotAsymmetric` | inc/math/GeomUtils.hpp:105 | two points that are each "less" than the other under the sort comparator |
| `GeomUtils.ComparatorsAgreeWhenSeparated` | inc/math/GeomUtils.hpp:105 | when `x` values are equal or at least `EPS` apart, the tolerant comparator is the exact lexicographic order |
| `GeomUtils.LexLessStrictTotalOrder` | inc/math/GeomUtils.hpp:102-107 | the exact lexicographic order is irreflexive, asymmetric, transitive and total |
| `GeomUtils.InsertLex` | inc/math/GeomUtils.hpp:102-107 | inserting into a sorted sequence keeps it sorted and adds exactly that point |
| `GeomUtils.LexicographicOrder` | inc/math/GeomUtils.hpp:102-107 | the result is sorted lexicographically and is a permutation of the input |
| `Lines.MakeLine` | inc/math/Line.hpp:19-24 | fails with "Require two unique points for a line" iff `dest ~ origin`; otherwise it stores both points, which then are distinct |
| `Lines.MakeLineExamples` | tests/Test_Line.cpp:5-13 | `(1,2)->(3,4)` is stored unchanged; a repeated point is rejected |
| `Lines.GetDir` | inc/math/Line.hpp:28 | the direction has the points' dimension and is tolerantly `dest - origin` (not normalised) |
| `Lines.DirLeadsToDest` | inc/math/Line.hpp:28 | `origin + dir` returns exactly `dest` when no coordinate is snapped |
| `Lines.GetDirExample` | tests/Test_Line.cpp:15-23 | `(1,2,3)->(4,5,6)` has direction `(3,3,3)`, whose squared norm is 27 rather than 1 |
| `Lines.Contains` | inc/math/Line.hpp:30-35 | a point is contained iff it is tolerantly an endpoint, or it is apart from both ends, collinear within tolerance, not behind `origin`, and no farther from `origin` than `dest` |
| `Lines.ContainsEndpoints` | inc/math/Line.hpp:30-35 | a segment contains both of its endpoints |
| `Lines.Intersects` | inc/math/Line.hpp:37-51 | true when some endpoint of either segment is contained in the other. Otherwise true iff, for each segment, exactly one endpoint of the other has a signed area of at most `-EPS` against it |
| `Lines.IntersectsSymmetric` | inc/math/Line.hpp:37-51 | `a.Intersects(b) == b.Intersects(a)` |
| `Lines.IntersectsSelf` | inc/math/Line.hpp:38-42 | a segment intersects itself |
| `Lines.ProperCrossingIntersects` | inc/math/Line.hpp:44-50 | segments whose endpoints lie strictly on both sides of each other intersect |
| `Lines.SameSideDoesNotIntersect` | inc/math/Line.hpp:44-50 | if neither segment touches the other and both endpoints of one lie strictly on one side of the other, they do not intersect |
| `Lines.StrictTurn` | inc/math/GeomUtils.hpp:84-91 | a cross product of `ab, ac` at least `2 EPS` from zero gives a strict turn of the matching sign |
| `Lines.IntersectsExampleCrossing` | inc/math/Line.hpp:44-50 | the diagonals of `[0,2]^2` intersect |
| `Lines.IntersectsExampleParallel` | inc/math/Line.hpp:37-51 | two parallel segments one unit apart do not intersect |
| `Lines.IntersectsExampleOverlap` | inc/math/Line.hpp:38-42 | overlapping collinear segments intersect |
| `Lines.IntersectsExampleDisjointCollinear` | inc/math/Line.hpp:37-51 | disjoint collinear segments do not intersect |
| `Lines.Normal` | inc/math/Line.hpp:56-57 | `(-dy, dx)` is orthogonal to `d` and has the same squared length |
| `Lines.Parameter` | inc/math/Line.hpp:59 | `t` solves `n . (a.origin - b.origin) - t (n . a.dir) == 0`, with `n` the normal of `b` |
| `Lines.UniqueSolution` | inc/math/Line.hpp:59 | with a non-zero denominator, the equation `num - t den == 0` has at most one solution, so `t` is determined |
| `Lines.MeetingPointOnBothLines` | inc/math/Line.hpp:55-61 | the point `a.origin - t a.dir` lies on `a`'s line and on `b`'s line (for unsnapped origins) |
| `Lines.PointAlong` | inc/math/Line.hpp:60 | each coordinate of `o + d * k` with snapped operators is within `EPS (1 + k)` of the exact point |
| `Lines.PointAlongIsSnappedSum` | inc/math/Line.hpp:60 | that point is the vector expression `Add(o, Scale(d, k))` |
| `Lines.GetIntersection` | inc/math/Line.hpp:55-61 | the result is within `EPS (1 + abs(t))`, coordinate by coordinate, of `a.origin + abs(t) a.dir` |
| `Lines.GetIntersectionExample` | inc/math/Line.hpp:55-61 | the diagonals of `[0,2]^2` give `t = -1/2` and the intersection `(1,1)` exactly |
| `Planes.MakePlane` | inc/math/Plane.hpp:15-20 | fails with "Cannot create plane from zero normal vector" iff every coordinate of the normal is near zero; otherwise it stores the normal and `d` |
| `Planes.PlaneFromPoints` | inc/math/Plane.hpp:21-30 | fails with "Require three unique points to define a plane" iff two of the points are tolerantly equal. Otherwise the normal is `Cross3D(p2 - p1, p3 - p1)`, it is orthogonal to both edges, and `d` is `normal . p1` |
| `Planes.PointsOnPlane` | inc/math/Plane.hpp:21-30 | all three defining points satisfy `normal . p == d` (for unsnapped coordinates) |
| `Planes.PlaneFromPointsExample` | tests/Test_Plane.cpp:6-20 | `(1,2,3),(4,5,6),(7,8,10)` give normal `(3,-3,0)` and `d = -3` |
| `Planes.MakePlaneExamples` | tests/Test_Plane.cpp:22-30 | `((1,2,3), 4)` is stored unchanged; the zero normal is rejected |
| `Planes.CollinearPointsAccepted` | inc/math/Plane.hpp:21-30 | three distinct collinear points are accepted, with a zero normal that `MakePlane` would reject |
| `Planes.PlaneFromPointsChecked` | inc/math/Plane.hpp:15-30 | the three-point constructor plus the zero-normal check: it fails on repeated points or a near-zero normal, and every plane it returns has a normal with a coordinate away from zero |
| `ConvexHull.HalfHull` | inc/alg/ConvexHull.hpp:15-34 | the chain starts and ends at the input's ends, is a subsequence of the input of length 2 to `n`, and turns strictly left at every interior point. Input that already turns strictly left everywhere comes back unchanged. When no triple of the input turns left, the chain is exactly `[first, last]` |
| `ConvexHull.Chains` | inc/alg/ConvexHull.hpp:39-43 | the upper chain is a subsequence of the sorted points from the first to the last, and the lower chain is a subsequence of their reversal from the last back to the first. Both chains turn strictly left. Input that already turns strictly left comes back whole as its chain. Input with no left turn gives the bare segment `[first, last]` (resp. `[last, first]`) |
| `ConvexHull.ErasedPointOutsideHull` | inc/alg/ConvexHull.hpp:23-30 | `(0,0)`, `(EPS,-0.9)`, `(2 EPS,0)` are already sorted and have no strict left turn in either direction. By `ConvexHull2D`'s contract the hull is then `[(0,0), (2 EPS,0), (0,0)]`, while `(EPS,-0.9)` lies 0.9 below it |
| `ConvexHull.Reverse` | inc/alg/ConvexHull.hpp:41 | the reversal has the same length and elements, in opposite order |
| `ConvexHull.ConvexHull2D` | inc/alg/ConvexHull.hpp:35-46 | the hull is the upper chain followed by the lower chain without its first point. The upper chain is a subsequence of the sorted input and the lower chain a subsequence of its reversal. Both chains turn strictly left, and each keeps the whole sorted sequence (or its reversal) when that already turns strictly left. Every hull point is an input point. The hull is closed: its first and last points are the lexicographically least point. The chains meet at the lexicographically greatest point. Input with no left turn either way gives `[least, greatest, least]` |

## Left out

- Floating-point rounding: coordinates are exact reals, and only the explicit zero-snapping and tolerance tests are modelled.
- `Norm()` and `sqrt`: a caller-supplied norm is used, with `norm * norm == Dot(v, v)`. This affects `Normalise`, `Area3d` and `Coincident3d`. `Orientation2d` compares squared lengths instead of norms. Both are monotone, so the comparison is the same.
- `ToUnitVector`: the in-place form of `Normalise`, with the same error condition; it is not modelled separately.
- The `Vector` constructors from an array, from `x, y` and from `x, y, z` are the datatype constructor, `Vec2` and `Vec3`. `x()`, `y()`, `z()` are `X`, `Y`, `Z`. The getters of `Line` and `Plane` are the datatype fields.
- The `operator<<` printers for `Vector` and `Orientation`: output only.
- The rendering window and the application entry point (`inc/viz/Window.h`, `main.cpp`): user interface, drawing and file loading.
- GeomUtils.LexicographicOrder: a sort by the exact lexicographic order, not `std::ranges::sort` with the tolerant comparator. That comparator is not a strict weak ordering (see Findings), so the C++ sort's result is unspecified.
- Lines.GetIntersection: requires a non-zero denominator, because the C++ code divides by it unchecked. The result is bounded against `|t|`. The fact that this is the meeting point for `t <= 0` comes from `MeetingPointOnBothLines`, not from one combined contract. Segments that only touch within `EPS` can give `t > 0`; the model does not promise the meeting point for them.
- Lines.MeetingPointOnBothLines: stated for unsnapped origins only. A coordinate that is near zero but not zero is snapped in `a.origin - b.origin`, which moves the point by up to `EPS`. Exact zeros are covered.
- Lines.DirLeadsToDest: stated for unsnapped coordinates only, for the same reason.
- GeomUtils.SwapEndpointsFlipsTurn: stated for unsnapped coordinates only, for the same reason.
- Planes.PointsOnPlane: stated for unsnapped coordinates only, for the same reason.
- Lines.Contains: modelled for 2-D points only, since `Orientation2d` takes 2-D points.
- ConvexHull.HalfHull: does not state that the erased points lie on or below the chain. A point is erased whenever the signed turn area is below `EPS`, and that includes turns that are slightly to the left. The erased point's distance from the chain is then bounded only by about `2 EPS / |edge|`, which grows without bound as the edge shortens. `ErasedPointOutsideHull` gives a point 0.9 outside the hull, so the source itself does not promise containment.
- ConvexHull.ConvexHull2D: does not state that every input point lies inside the hull, nor that the hull is minimal, for the reason given for `HalfHull`. It does state that each chain is an order-preserving subsequence of the sorted input (or its reversal) that turns strictly left, the hull's ends, that hull points come from the input, and what convex and collinear input give.

## Findings

| source | as written | input that shows it | evidently intended | confidence | as-written member | corrected member |
|---|---|---|---|---|---|---|
| inc/math/GeomUtils.hpp:105 | the sort comparator treats `x` values within `EPS` as tied, then compares `y` | `(0, 1)` and `(EPS/2, 0)`: each compares less than the other | a strict weak ordering, as `std::ranges::sort` requires | high, not executed | `GeomUtils.ToleranceLexLessNotAsymmetric` | `GeomUtils.LexicographicOrder` |
| inc/math/Plane.hpp:21-30 | the three-point constructor checks only for repeated points | `(1,1,1), (2,2,2), (3,3,3)` give the zero normal, which the other constructor rejects | planes have a non-zero normal whichever constructor builds them | medium, not executed | `Planes.CollinearPointsAccepted` | `Planes.PlaneFromPointsChecked` |

=== FILE: convex_hull.dfy ===
/**
 Andrew's monotone-chain convex hull of inc/alg/ConvexHull.hpp: a stack
 scan (`HalfHull`) run over the lexicographically sorted points and over
 their reversal, the two chains joined at their shared end point.
 */
module ConvexHull {
  import opened Tolerance
  import opened Vectors
  import opened GeomUtils

  /** Every three consecutive points turn strictly left. */
  predicate LeftTurns(s: seq<Vector2>) {
    forall k :: 0 <= k < |s| - 2 ==> TurnsLeftAt(s, k)
  }

  /** The three points of `s` from position `k` turn strictly left. */
  predicate TurnsLeftAt(s: seq<Vector2>, k: int)
    requires 0 <= k < |s| - 2
  {
    TurnsLeft(s[k], s[k + 1], s[k + 2])
  }

  /** `idx` lists, in increasing order, the positions of `s` that `sub` is taken from. */
  ghost predicate Embedding(idx: seq<int>, sub: seq<Vector2>, s: seq<Vector2>) {
    && |idx| == |sub|
    && (forall k :: 0 <= k < |idx| ==> 0 <= idx[k] < |s| && sub[k] == s[idx[k]])
    && (forall j, k :: 0 <= j < k < |idx| ==> idx[j] < idx[k])
  }

  /** `sub` is an order-preserving subsequence of `s`. */
  ghost predicate IsSubsequence(sub: seq<Vector2>, s: seq<Vector2>) {
    exists idx :: Embedding(idx, sub, s)
  }

  /** No three points of `s`, taken in order, turn strictly left (as for
      collinear input). */
  predicate NoLeftTurn(s: seq<Vector2>) {
    forall i, j, k {:trigger TurnsLeft(s[i], s[j], s[k])} :: 0 <= i < j < k < |s| ==> !TurnsLeft(s[i], s[j], s[k])
  }

  /** `a`, `b`, `c` turn strictly left. */
  predicate TurnsLeft(a: Vector2, b: Vector2, c: Vector2) {
    Orientation2d(a, b, c) == Positive
  }

  /** `HalfHull`: scan the points in order, pushing each one and then
      erasing the middle of the last three while they do not turn strictly
      left. The source reads the first two points unconditionally, so at
      least two are required. */
  method HalfHull(points: seq<Vector2>) returns (hull: seq<Vector2>)
    requires |points| >= 2
    ensures 2 <= |hull| <= |points|
    ensures hull[0] == points[0] && hull[|hull| - 1] == points[|points| - 1]
    ensures forall k :: 0 <= k < |hull| ==> hull[k] in points
    ensures IsSubsequence(hull, points)
    ensures LeftTurns(hull)
    ensures NoLeftTurn(points) ==> hull == [points[0], points[|points| - 1]]
    ensures LeftTurns(points) ==> hull == points
  {
    hull := [points[0], points[1]];
    ghost var idx := [0, 1];
    var i := 2;
    while i < |points|
      invariant 2 <= i <= |points|
      invariant 2 <= |hull| <= i
      invariant Stack(idx, hull, points, i - 1)
      invariant LeftTurns(hull)
      invariant LeftTurns(points) ==> |hull| == i
    {
      PushKeepsStack(idx, hull, points, i);
      hull := hull + [points[i]];
      idx := idx + [i];
      while |hull| > 2
        invariant 2 <= |hull| <= i + 1
        invariant Stack(idx, hull, points, i)
        invariant LeftTurns(hull[..|hull| - 1])
        invariant LeftTurns(points) ==> |hull| == i + 1
        decreases |hull|
      {
        ConvexInputNeverErases(idx, hull, points, i);
        var orientation := Orientation2d(hull[|hull| - 3], hull[|hull| - 2], hull[|hull| - 1]);
        if orientation == Positive {
          break;
        }
        // Not a strict left turn beyond the tolerance: erase the middle point.
        EraseKeepsLeftTurns(hull);
        EraseKeepsStack(idx, hull, points, i);
        hull := hull[..|hull| - 2] + [hull[|hull| - 1]];
        idx := idx[..|idx| - 2] + [idx[|idx| - 1]];
      }
      LeftTurnsExtend(hull);
      i := i + 1;
    }
    StackFacts(idx, hull, points);
    FullStackIsInput(idx, hull, points);
  }

  /** The ghost view of the stack: `hull` is taken from `points` at the
      increasing positions `idx`, from the first point up to position `top`. */
  ghost predicate Stack(idx: seq<int>, hull: seq<Vector2>, points: seq<Vector2>, top: int) {
    && Embedding(idx, hull, points)
    && |idx| >= 2
    && idx[0] == 0
    && idx[|idx| - 1] == top
  }

  /** A stack that holds one entry per position up to `top` holds every
      position: it is the prefix of the input. */
  lemma {:induction false} FullStackIsPrefix(idx: seq<int>, hull: seq<Vector2>, points: seq<Vector2>, top: int)
    requires Stack(idx, hull, points, top) && |hull| == top + 1
    ensures hull == points[..top + 1]
  {
    forall k | 0 <= k < |idx|
      ensures idx[k] == k
    {
      IncreasingFromZero(idx, k);
      IncreasingToTop(idx, k);
    }
  }

  lemma FullStackIsInput(idx: seq<int>, hull: seq<Vector2>, points: seq<Vector2>)
    requires Stack(idx, hull, points, |points| - 1)
    ensures |hull| == |points| ==> hull == points
  {
    if |hull| == |points| {
      FullStackIsPrefix(idx, hull, points, |points| - 1);
      assert points[..|points|] == points;
    }
  }

  lemma {:induction false} IncreasingToTop(idx: seq<int>, k: int)
    requires 0 <= k < |idx|
    requires forall i, j :: 0 <= i < j < |idx| ==> idx[i] < idx[j]
    ensures idx[k] + (|idx| - 1 - k) <= idx[|idx| - 1]
    decreases |idx| - k
  {
    if k < |idx| - 1 {
      IncreasingToTop(idx, k + 1);
    }
  }

  /** On input that already turns left everywhere, a stack holding one
      entry per position read is the prefix of the input, so its top three
      points turn left and nothing is erased. */
  lemma ConvexInputNeverErases(idx: seq<int>, hull: seq<Vector2>, points: seq<Vector2>, i: int)
    requires Stack(idx, hull, points, i) && 2 <= i < |points| && |hull| > 2
    requires LeftTurns(points) ==> |hull| == i + 1
    ensures LeftTurns(points) ==> Orientation2d(hull[|hull| - 3], hull[|hull| - 2], hull[|hull| - 1]) == Positive
  {
    if LeftTurns(points) {
      FullStackIsPrefix(idx, hull, points, i);
      assert hull[|hull| - 3] == points[i - 2] && hull[|hull| - 2] == points[i - 1] && hull[|hull| - 1] == points[i];
      assert TurnsLeftAt(points, i - 2);
    }
  }

  lemma PushKeepsStack(idx: seq<int>, hull: seq<Vector2>, points: seq<Vector2>, i: int)
    requires Stack(idx, hull, points, i - 1) && i < |points|
    ensures Stack(idx + [i], hull + [points[i]], points, i)
  {
  }

  lemma EraseKeepsStack(idx: seq<int>, hull: seq<Vector2>, points: seq<Vector2>, top: int)
    requires Stack(idx, hull, points, top) && |hull| > 2
    ensures Stack(idx[..|idx| - 2] + [idx[|idx| - 1]], hull[..|hull| - 2] + [hull[|hull| - 1]], points, top)
  {
    var idx', hull' := idx[..|idx| - 2] + [idx[|idx| - 1]], hull[..|hull| - 2] + [hull[|hull| - 1]];
    forall j, k | 0 <= j < k < |idx'|
      ensures idx'[j] < idx'[k]
    {
      if k == |idx'| - 1 {
        assert idx'[k] == idx[|idx| - 1];
      }
    }
  }

  /** What the final stack gives the caller. */
  lemma StackFacts(idx: seq<int>, hull: seq<Vector2>, points: seq<Vector2>)
    requires Stack(idx, hull, points, |points| - 1) && LeftTurns(hull)
    ensures hull[0] == points[0] && hull[|hull| - 1] == points[|points| - 1]
    ensures 2 <= |hull| <= |points|
    ensures forall k :: 0 <= k < |hull| ==> hull[k] in points
    ensures IsSubsequence(hull, points)
    ensures NoLeftTurn(points) ==> hull == [points[0], points[|points| - 1]]
  {
    EmbeddingLength(idx, hull, points);
    if |hull| > 2 {
      LeftTurnWitness(idx, hull, points);
    }
  }

  /** A strict left turn on the stack is one among the points it came from. */
  lemma LeftTurnWitness(idx: seq<int>, hull: seq<Vector2>, points: seq<Vector2>)
    requires Embedding(idx, hull, points) && LeftTurns(hull) && |hull| > 2
    ensures !NoLeftTurn(points)
  {
    assert TurnsLeftAt(hull, 0);
    assert TurnsLeft(points[idx[0]], points[idx[1]], points[idx[2]]);
  }

  /** An embedding is no longer than the sequence it embeds into. */
  lemma {:induction false} EmbeddingLength(idx: seq<int>, sub: seq<Vector2>, s: seq<Vector2>)
    requires Embedding(idx, sub, s) && |idx| > 0
    ensures |sub| <= |s|
  {
    IncreasingFromZero(idx, |idx| - 1);
  }

  lemma {:induction false} IncreasingFromZero(idx: seq<int>, k: int)
    requires 0 <= k < |idx|
    requires forall j :: 0 <= j < |idx| ==> 0 <= idx[j]
    requires forall i, j :: 0 <= i < j < |idx| ==> idx[i] < idx[j]
    ensures k <= idx[k]
    decreases k
  {
    if k > 0 {
      IncreasingFromZero(idx, k - 1);
    }
  }

  /** Erasing the middle of the last three keeps the strict left turns of
      the stack below the new top. */
  lemma EraseKeepsLeftTurns(s: seq<Vector2>)
    requires |s| > 2 && LeftTurns(s[..|s| - 1])
    ensures var t := s[..|s| - 2] + [s[|s| - 1]];
            LeftTurns(t[..|t| - 1])
  {
    var t := s[..|s| - 2] + [s[|s| - 1]];
    var below, before := t[..|t| - 1], s[..|s| - 1];
    forall k | 0 <= k < |below| - 2
      ensures TurnsLeftAt(below, k)
    {
      assert TurnsLeftAt(before, k);
      assert below[k] == before[k] && below[k + 1] == before[k + 1] && below[k + 2] == before[k + 2];
    }
  }

  /** The stack turns left everywhere once its top triple does. */
  lemma LeftTurnsExtend(s: seq<Vector2>)
    requires |s| >= 2 && LeftTurns(s[..|s| - 1])
    requires |s| > 2 ==> Orientation2d(s[|s| - 3], s[|s| - 2], s[|s| - 1]) == Positive
    ensures LeftTurns(s)
  {
    var below := s[..|s| - 1];
    forall k | 0 <= k < |s| - 2
      ensures TurnsLeftAt(s, k)
    {
      if k < |s| - 3 {
        assert TurnsLeftAt(below, k);
        assert below[k] == s[k] && below[k + 1] == s[k + 1] && below[k + 2] == s[k + 2];
      }
    }
  }

  /** A point erased by the strict-left-turn test can lie far outside the
      hull: `b` sits 0.9 below the segment from `a` to `c`, but the turn
      area at `b` is only `0.9 EPS` either way. The points are sorted as
      given, so `ConvexHull2D` returns `[a, c, a]` and drops `b`. */
  lemma ErasedPointOutsideHull()
    ensures var a, b, c := Vec2(0.0, 0.0), Vec2(EPS, -0.9), Vec2(2.0 * EPS, 0.0);
            && LexicographicOrder([a, b, c]) == [a, b, c]
            && NoLeftTurn([a, b, c])
            && NoLeftTurn(Reverse([a, b, c]))
  {
    var a, b, c := Vec2(0.0, 0.0), Vec2(EPS, -0.9), Vec2(2.0 * EPS, 0.0);
    ShallowTurns(a, b, c);
    SortedThree(a, b, c);
    NoLeftTurnOfThree(a, b, c);
    NoLeftTurnReversedThree([a, b, c]);
  }

  /** The turn areas of the example, forwards and backwards. */
  lemma ShallowTurns(a: Vector2, b: Vector2, c: Vector2)
    requires a == Vec2(0.0, 0.0) && b == Vec2(EPS, -0.9) && c == Vec2(2.0 * EPS, 0.0)
    ensures TurnArea(a, b, c) == 0.9 * EPS && TurnArea(c, b, a) == -0.9 * EPS
    ensures !TurnsLeft(a, b, c) && !TurnsLeft(c, b, a)
  {
    ShallowTurnForwards(a, b, c);
    ShallowTurnBackwards(a, b, c);
  }

  lemma ShallowTurnForwards(a: Vector2, b: Vector2, c: Vector2)
    requires a == Vec2(0.0, 0.0) && b == Vec2(EPS, -0.9) && c == Vec2(2.0 * EPS, 0.0)
    ensures TurnArea(a, b, c) == 0.9 * EPS
  {
    var e := EPS;
    assert Sub(b, a) == Vec2(e, -0.9);
    assert Sub(c, a) == Vec2(2.0 * e, 0.0);
    assert Cross2D(Vec2(e, -0.9), Vec2(2.0 * e, 0.0)) == 1.8 * e;
  }

  lemma ShallowTurnBackwards(a: Vector2, b: Vector2, c: Vector2)
    requires a == Vec2(0.0, 0.0) && b == Vec2(EPS, -0.9) && c == Vec2(2.0 * EPS, 0.0)
    ensures TurnArea(c, b, a) == -0.9 * EPS
  {
    var e := EPS;
    assert Sub(b, c) == Vec2(-e, -0.9);
    assert Sub(a, c) == Vec2(-2.0 * e, 0.0);
    assert Cross2D(Vec2(-e, -0.9), Vec2(-2.0 * e, 0.0)) == -1.8 * e;
  }

  lemma NoLeftTurnOfThree(a: Vector2, b: Vector2, c: Vector2)
    requires !TurnsLeft(a, b, c)
    ensures NoLeftTurn([a, b, c])
  {
    var s := [a, b, c];
    forall i, j, k | 0 <= i < j < k < |s|
      ensures !TurnsLeft(s[i], s[j], s[k])
    {
      assert i == 0 && j == 1 && k == 2;
    }
  }

  /** Three points read backwards have no left turn when `c, b, a` has none. */
  lemma NoLeftTurnReversedThree(s: seq<Vector2>)
    requires |s| == 3 && !TurnsLeft(s[2], s[1], s[0])
    ensures NoLeftTurn(Reverse(s))
  {
    var r := Reverse(s);
    forall i, j, k | 0 <= i < j < k < |r|
      ensures !TurnsLeft(r[i], r[j], r[k])
    {
      assert i == 0 && j == 1 && k == 2;
      assert r[0] == s[2] && r[1] == s[1] && r[2] == s[0];
    }
  }

  /** Three points already in strict lexicographic order are left as they are. */
  lemma SortedThree(a: Vector2, b: Vector2, c: Vector2)
    requires LexLess(a, b) && LexLess(b, c)
    ensures LexicographicOrder([a, b, c]) == [a, b, c]
  {
    assert [a, b, c][1..] == [b, c];
    assert [b, c][1..] == [c];
    assert [c][1..] == [];
  }

  /** `std::ranges::reverse`. */
  function Reverse(s: seq<Vector2>): (r: seq<Vector2>)
    ensures |r| == |s|
    ensures forall i :: 0 <= i < |s| ==> r[i] == s[|s| - 1 - i]
    ensures multiset(r) == multiset(s)
  {
    if |s| == 0 then []
    else
      assert s == [s[0]] + s[1..];
      Reverse(s[1..]) + [s[0]]
  }

  /** `ConvexHull2D`: sort a copy of the points, scan it forwards for one
      chain and backwards for the other, and append the second chain
      without its first point (the last point of the first chain). The
      result therefore starts and ends at the lexicographically first point.
      The input is a value and is left unchanged. */
  method ConvexHull2D(points: seq<Vector2>) returns (hull: seq<Vector2>, ghost sorted: seq<Vector2>, ghost upper: seq<Vector2>, ghost lower: seq<Vector2>)
    requires |points| >= 2
    ensures |upper| >= 2 && |lower| >= 2
    ensures hull == upper + lower[1..]
    ensures |hull| == |upper| + |lower| - 1 >= 3
    ensures LeftTurns(upper) && LeftTurns(lower)
    ensures forall p :: p in hull ==> p in points
    ensures hull[0] == hull[|hull| - 1] == upper[0]
    ensures upper[|upper| - 1] == lower[0]
    ensures forall p :: p in points ==> LexLeq(hull[0], p) && LexLeq(p, lower[0])
    ensures sorted == LexicographicOrder(points)
    ensures IsSubsequence(upper, sorted) && IsSubsequence(lower, Reverse(sorted))
    ensures LeftTurns(sorted) ==> upper == sorted
    ensures LeftTurns(Reverse(sorted)) ==> lower == Reverse(sorted)
    ensures NoLeftTurn(sorted) && NoLeftTurn(Reverse(sorted)) ==>
              hull == [sorted[0], sorted[|sorted| - 1], sorted[0]]
  {
    var newPoints := LexicographicOrder(points);
    var upperHull, lowerHull := Chains(newPoints);

    hull := upperHull + lowerHull[1..];
    sorted, upper, lower := newPoints, upperHull, lowerHull;
    JoinedChains(points, newPoints, upperHull, lowerHull, hull);
    DegenerateHull(newPoints, upperHull, lowerHull);
  }

  /** The two chains: the scan over the sorted points, from the first
      point to the last, and the scan over their reversal, back again. */
  method Chains(sorted: seq<Vector2>) returns (upper: seq<Vector2>, lower: seq<Vector2>)
    requires |sorted| >= 2
    ensures 2 <= |upper| <= |sorted| && 2 <= |lower| <= |sorted|
    ensures upper[0] == sorted[0] && upper[|upper| - 1] == sorted[|sorted| - 1]
    ensures lower[0] == sorted[|sorted| - 1] && lower[|lower| - 1] == sorted[0]
    ensures forall k :: 0 <= k < |upper| ==> upper[k] in sorted
    ensures forall k :: 0 <= k < |lower| ==> lower[k] in sorted
    ensures LeftTurns(upper) && LeftTurns(lower)
    ensures IsSubsequence(upper, sorted) && IsSubsequence(lower, Reverse(sorted))
    ensures LeftTurns(sorted) ==> upper == sorted
    ensures LeftTurns(Reverse(sorted)) ==> lower == Reverse(sorted)
    ensures NoLeftTurn(sorted) ==> upper == [sorted[0], sorted[|sorted| - 1]]
    ensures NoLeftTurn(Reverse(sorted)) ==> lower == [sorted[|sorted| - 1], sorted[0]]
  {
    upper := HalfHull(sorted);
    var reversed := Reverse(sorted);
    lower := HalfHull(reversed);
    ReverseEnds(sorted);
    forall k | 0 <= k < |lower|
      ensures lower[k] in sorted
    {
      assert lower[k] in multiset(reversed);
    }
  }

  /** With no left turn in either direction, the joined hull is the
      closed segment from the least point to the greatest and back. */
  lemma DegenerateHull(sorted: seq<Vector2>, upper: seq<Vector2>, lower: seq<Vector2>)
    requires |sorted| >= 2 && |lower| >= 2
    requires NoLeftTurn(sorted) ==> upper == [sorted[0], sorted[|sorted| - 1]]
    requires NoLeftTurn(Reverse(sorted)) ==> lower == [sorted[|sorted| - 1], sorted[0]]
    ensures NoLeftTurn(sorted) && NoLeftTurn(Reverse(sorted)) ==>
              upper + lower[1..] == [sorted[0], sorted[|sorted| - 1], sorted[0]]
  {
    if NoLeftTurn(sorted) && NoLeftTurn(Reverse(sorted)) {
      assert lower[1..] == [sorted[0]];
    }
  }

  /** What joining the two chains gives, from what `HalfHull` promises
      about each of them. */
  lemma JoinedChains(points: seq<Vector2>, sorted: seq<Vector2>, upper: seq<Vector2>, lower: seq<Vector2>, hull: seq<Vector2>)
    requires SortedLex(sorted) && multiset(sorted) == multiset(points) && |points| >= 2
    requires 2 <= |upper| && upper[0] == sorted[0] && upper[|upper| - 1] == sorted[|sorted| - 1]
    requires 2 <= |lower| && lower[0] == sorted[|sorted| - 1] && lower[|lower| - 1] == sorted[0]
    requires forall k :: 0 <= k < |upper| ==> upper[k] in sorted
    requires forall k :: 0 <= k < |lower| ==> lower[k] in sorted
    requires hull == upper + lower[1..]
    ensures |hull| == |upper| + |lower| - 1 >= 3
    ensures forall p :: p in hull ==> p in points
    ensures hull[0] == hull[|hull| - 1] == upper[0]
    ensures upper[|upper| - 1] == lower[0]
    ensures forall p :: p in points ==> LexLeq(hull[0], p) && LexLeq(p, lower[0])
  {
    assert |multiset(sorted)| == |multiset(points)|;
    HullEnds(sorted, upper, lower, points);
    ChainsFromPoints(upper, lower, sorted, points);
  }

  /** The joined hull starts and ends at the least point, and the chains
      meet at the greatest. */
  lemma HullEnds(sorted: seq<Vector2>, upper: seq<Vector2>, lower: seq<Vector2>, points: seq<Vector2>)
    requires SortedLex(sorted) && multiset(sorted) == multiset(points) && |points| >= 2
    requires |upper| >= 2 && upper[0] == sorted[0] && upper[|upper| - 1] == sorted[|sorted| - 1]
    requires |lower| >= 2 && lower[0] == sorted[|sorted| - 1] && lower[|lower| - 1] == sorted[0]
    ensures var hull := upper + lower[1..];
            && hull[0] == hull[|hull| - 1] == upper[0]
            && upper[|upper| - 1] == lower[0]
            && forall p :: p in points ==> LexLeq(hull[0], p) && LexLeq(p, lower[0])
  {
    SortedEnds(sorted, points);
  }

  lemma ReverseEnds(s: seq<Vector2>)
    requires |s| > 0
    ensures Reverse(s)[0] == s[|s| - 1] && Reverse(s)[|s| - 1] == s[0]
  {
  }

  /** Both chains take their points from a permutation of the input, so
      the joined hull does too. */
  lemma ChainsFromPoints(upper: seq<Vector2>, lower: seq<Vector2>, sorted: seq<Vector2>, points: seq<Vector2>)
    requires |lower| >= 1
    requires multiset(sorted) == multiset(points)
    requires forall k :: 0 <= k < |upper| ==> upper[k] in sorted
    requires forall k :: 0 <= k < |lower| ==> lower[k] in sorted
    ensures forall p :: p in upper + lower[1..] ==> p in points
  {
    forall p | p in upper + lower[1..]
      ensures p in points
    {
      if p in upper {
        var k :| 0 <= k < |upper| && upper[k] == p;
        assert p in multiset(sorted);
      } else {
        var k :| 0 <= k < |lower[1..]| && lower[1..][k] == p;
        assert lower[k + 1] in sorted;
        assert p in multiset(sorted);
      }
    }
  }

  /** A sorted permutation starts at a least and ends at a greatest point. */
  lemma SortedEnds(sorted: seq<Vector2>, points: seq<Vector2>)
    requires SortedLex(sorted) && multiset(sorted) == multiset(points) && |points| > 0
    ensures |sorted| == |points|
    ensures forall p :: p in points ==> LexLeq(sorted[0], p) && LexLeq(p, sorted[|sorted| - 1])
  {
    assert |multiset(sorted)| == |multiset(points)|;
    forall p | p in points
      ensures LexLeq(sorted[0], p) && LexLeq(p, sorted[|sorted| - 1])
    {
      assert p in multiset(points);
      assert p in multiset(sorted);
      var k :| 0 <= k < |sorted| && sorted[k] == p;
      if k != 0 {
        assert LexLeq(sorted[0], sorted[k]);
      }
      if k != |sorted| - 1 {
        assert LexLeq(sorted[k], sorted[|sorted| - 1]);
      }
    }
  }

}

=== FILE: geom_utils.dfy ===
/**
 Areas, coincidence tests, the seven-way orientation predicate and the
 lexicographic point order of inc/math/GeomUtils.hpp.
 */
module GeomUtils {
  import opened Tolerance
  import opened Vectors

  /** Where `c` lies relative to the directed segment from `a` to `b`. */
  datatype Orientation =
    | Negative     // strictly to the right
    | Positive     // strictly to the left
    | Beyond       // on the line, past `b`
    | Behind       // on the line, before `a`
    | InInterval   // on the segment, strictly between `a` and `b`
    | Origin       // at `a`
    | Destination  // at `b`

  // ---------------------------------------------------------------------
  // Areas and coincidence
  // ---------------------------------------------------------------------

  /** `Area2d(a, b)`: the signed area of the triangle (0, a, b). */
  function Area2d(a: Vector2, b: Vector2): real {
    Cross2D(a, b) / 2.0
  }

  /** `Coincident2d(a, b)`: the area is within tolerance of zero. */
  predicate Coincident2d(a: Vector2, b: Vector2) {
    IsEqual(Area2d(a, b), 0.0)
  }

  /** `Area3d(a, b)`: half the norm of `Cross3D(a, b)`. The square root is
      not modelled: the caller supplies the norm of the cross product. */
  function Area3d(a: Vector3, b: Vector3, crossNorm: real): (r: real)
    requires crossNorm >= 0.0 && crossNorm * crossNorm == Dot(Cross3D(a, b), Cross3D(a, b))
    ensures r >= 0.0
    ensures 4.0 * (r * r) == Dot(Cross3D(a, b), Cross3D(a, b))
  {
    var r := crossNorm / 2.0;
    assert crossNorm == 2.0 * r;
    assert crossNorm * crossNorm == 4.0 * (r * r);
    r
  }

  /** `Coincident3d(a, b)`: the 3-D area is within tolerance of zero, which
      for a non-negative area means its square is below EPS squared. */
  function Coincident3d(a: Vector3, b: Vector3, crossNorm: real): (r: bool)
    requires crossNorm >= 0.0 && crossNorm * crossNorm == Dot(Cross3D(a, b), Cross3D(a, b))
    ensures r <==> Dot(Cross3D(a, b), Cross3D(a, b)) < 4.0 * (EPS * EPS)
  {
    var area := Area3d(a, b, crossNorm);
    SmallNormIffSmallSquare(area, area * area);
    IsEqual(area, 0.0)
  }

  /** `Coincident2d` holds exactly when the cross product is below twice
      the tolerance; it is symmetric, and a vector is coincident with every
      exact multiple of itself. */
  lemma Coincident2dProperties(a: Vector2, b: Vector2, k: real)
    ensures Coincident2d(a, b) <==> -2.0 * EPS < Cross2D(a, b) < 2.0 * EPS
    ensures Coincident2d(a, b) <==> Coincident2d(b, a)
    ensures Coincident2d(a, Vec2(k * X(a), k * Y(a)))
  {
    var m := Vec2(k * X(a), k * Y(a));
    ParallelCross(X(a), Y(a), k);
    assert Cross2D(a, m) == X(a) * (k * Y(a)) - Y(a) * (k * X(a));
  }

  lemma ParallelCross(x: real, y: real, k: real)
    ensures x * (k * y) - y * (k * x) == 0.0
  {
  }

  /** Test-table values for the areas and coincidence tests. */
  lemma AreaExamples()
    ensures Area2d(Vec2(1.0, 2.0), Vec2(3.0, 4.0)) == -1.0
    ensures Coincident2d(Vec2(1.0, 2.0), Vec2(2.0, 4.0))
    ensures !Coincident2d(Vec2(1.0, 2.0), Vec2(2.0, 5.0))
    ensures Cross3D(Vec3(1.0, 2.0, 3.0), Vec3(2.0, 4.0, 6.0)) == Vec3(0.0, 0.0, 0.0)
    ensures Cross3D(Vec3(1.0, 2.0, 3.0), Vec3(2.0, 4.0, 7.0)) == Vec3(2.0, -1.0, 0.0)
  {
  }

  /** The 3-D area test: the triangle on `(1,2,3)` and `(4,5,6)` has area
      `sqrt(54) / 2`, for any correctly supplied norm. */
  lemma Area3dExample(n: real)
    requires n >= 0.0 && n * n == Dot(Cross3D(Vec3(1.0, 2.0, 3.0), Vec3(4.0, 5.0, 6.0)),
                                      Cross3D(Vec3(1.0, 2.0, 3.0), Vec3(4.0, 5.0, 6.0)))
    ensures var r := Area3d(Vec3(1.0, 2.0, 3.0), Vec3(4.0, 5.0, 6.0), n);
            4.0 * (r * r) == 54.0
  {
    var c := Vec3(-3.0, 6.0, -3.0);
    assert Cross3D(Vec3(1.0, 2.0, 3.0), Vec3(4.0, 5.0, 6.0)) == c;
    Dot3(c, c);
  }

  /** The 3-D coincidence examples, for any correctly supplied norm. */
  lemma Coincident3dExamples(n1: real, n2: real)
    requires n1 >= 0.0 && n1 * n1 == Dot(Cross3D(Vec3(1.0, 2.0, 3.0), Vec3(2.0, 4.0, 6.0)),
                                          Cross3D(Vec3(1.0, 2.0, 3.0), Vec3(2.0, 4.0, 6.0)))
    requires n2 >= 0.0 && n2 * n2 == Dot(Cross3D(Vec3(1.0, 2.0, 3.0), Vec3(2.0, 4.0, 7.0)),
                                          Cross3D(Vec3(1.0, 2.0, 3.0), Vec3(2.0, 4.0, 7.0)))
    ensures Coincident3d(Vec3(1.0, 2.0, 3.0), Vec3(2.0, 4.0, 6.0), n1)
    ensures !Coincident3d(Vec3(1.0, 2.0, 3.0), Vec3(2.0, 4.0, 7.0), n2)
  {
    var zero, c := Vec3(0.0, 0.0, 0.0), Vec3(2.0, -1.0, 0.0);
    assert Cross3D(Vec3(1.0, 2.0, 3.0), Vec3(2.0, 4.0, 6.0)) == zero;
    assert Cross3D(Vec3(1.0, 2.0, 3.0), Vec3(2.0, 4.0, 7.0)) == c;
    Dot3(zero, zero);
    Dot3(c, c);
    var e := EPS;
    SquareStrictMonotone(0.0, e);
    SquareMonotone(e, 0.001);
    assert 4.0 * (e * e) <= 0.000004;
  }

  // ---------------------------------------------------------------------
  // Orientation
  // ---------------------------------------------------------------------

  /** The area `Orientation2d` tests: spanned by the snapped differences
      `b - a` and `c - a`. */
  function TurnArea(a: Vector2, b: Vector2, c: Vector2): real {
    Area2d(Sub(b, a), Sub(c, a))
  }

  /** The signed area with every value within tolerance of zero replaced
      by an exact zero, so that only its sign matters afterwards. */
  function SnapToZero(x: real): (r: real)
    ensures r < 0.0 <==> x <= -EPS
    ensures r > 0.0 <==> x >= EPS
  {
    if IsEqual(x, 0.0) then 0.0 else x
  }

  /** `c` is tolerantly distinct from both endpoints. */
  predicate Apart(a: Vector2, b: Vector2, c: Vector2) {
    !Eq(a, c) && !Eq(b, c)
  }

  /** `Orientation2d(a, b, c)`: endpoint coincidence first, then the sign of
      the area snapped to zero within tolerance, then, for collinear points,
      the projection of `c` on the direction of the segment. Norms are
      compared through their squares. */
  function Orientation2d(a: Vector2, b: Vector2, c: Vector2): (r: Orientation)
    ensures r == Origin <==> Eq(a, c)
    ensures r == Destination <==> !Eq(a, c) && Eq(b, c)
    ensures r == Negative <==> Apart(a, b, c) && TurnArea(a, b, c) <= -EPS
    ensures r == Positive <==> Apart(a, b, c) && TurnArea(a, b, c) >= EPS
    ensures r == Behind <==>
              Apart(a, b, c) && -EPS < TurnArea(a, b, c) < EPS
              && Dot(Sub(b, a), Sub(c, a)) < 0.0
    ensures r == Beyond <==>
              Apart(a, b, c) && -EPS < TurnArea(a, b, c) < EPS
              && Dot(Sub(b, a), Sub(c, a)) >= 0.0
              && Dot(Sub(b, a), Sub(b, a)) < Dot(Sub(c, a), Sub(c, a))
    ensures r == InInterval <==>
              Apart(a, b, c) && -EPS < TurnArea(a, b, c) < EPS
              && Dot(Sub(b, a), Sub(c, a)) >= 0.0
              && Dot(Sub(c, a), Sub(c, a)) <= Dot(Sub(b, a), Sub(b, a))
  {
    if Eq(a, c) then Origin
    else if Eq(b, c) then Destination
    else
      var area := SnapToZero(TurnArea(a, b, c));
      if area < 0.0 then Negative
      else if area > 0.0 then Positive
      else if Dot(Sub(b, a), Sub(c, a)) < 0.0 then Behind
      else if Dot(Sub(b, a), Sub(b, a)) < Dot(Sub(c, a), Sub(c, a)) then Beyond
      else InInterval
  }

  /** The two endpoints classify as themselves; `a` wins when `b` coincides with it. */
  lemma OrientationOfEndpoints(a: Vector2, b: Vector2)
    ensures Orientation2d(a, b, a) == Origin
    ensures Orientation2d(a, b, b) == (if Eq(a, b) then Origin else Destination)
  {
    EqReflexiveSymmetric(a, b);
  }

  /** The seven cases of the test table, with `a = (0,0)` and `b = (1,0)`
      (or `b = (2,0)` for the interval case). */
  lemma OrientationExamplePositive()
    ensures Orientation2d(Vec2(0.0, 0.0), Vec2(1.0, 0.0), Vec2(1.0, 1.0)) == Positive
  {
    var o, e1, c := Vec2(0.0, 0.0), Vec2(1.0, 0.0), Vec2(1.0, 1.0);
    NotNearZero();
    assert Sub(e1, o) == e1 && Sub(c, o) == c;
    assert !Eq(o, c) && !Eq(e1, c);
    Cross2DOf(1.0, 0.0, 1.0, 1.0);
  }

  lemma OrientationExampleNegative()
    ensures Orientation2d(Vec2(0.0, 0.0), Vec2(1.0, 0.0), Vec2(1.0, -1.0)) == Negative
  {
    var o, e1, c := Vec2(0.0, 0.0), Vec2(1.0, 0.0), Vec2(1.0, -1.0);
    NotNearZero();
    assert Sub(e1, o) == e1 && Sub(c, o) == c;
    assert !Eq(o, c) && !Eq(e1, c);
    Cross2DOf(1.0, 0.0, 1.0, -1.0);
  }

  lemma OrientationExampleBeyond()
    ensures Orientation2d(Vec2(0.0, 0.0), Vec2(1.0, 0.0), Vec2(2.0, 0.0)) == Beyond
  {
    var o, e1, e2 := Vec2(0.0, 0.0), Vec2(1.0, 0.0), Vec2(2.0, 0.0);
    NotNearZero();
    OnXAxis(1.0, 2.0);
    assert !Eq(o, e2) && !Eq(e1, e2);
  }

  lemma OrientationExampleBehind()
    ensures Orientation2d(Vec2(0.0, 0.0), Vec2(1.0, 0.0), Vec2(-1.0, 0.0)) == Behind
  {
    var o, e1, m1 := Vec2(0.0, 0.0), Vec2(1.0, 0.0), Vec2(-1.0, 0.0);
    NotNearZero();
    OnXAxis(1.0, -1.0);
    assert !Eq(o, m1) && !Eq(e1, m1);
  }

  lemma OrientationExampleInInterval()
    ensures Orientation2d(Vec2(0.0, 0.0), Vec2(2.0, 0.0), Vec2(1.0, 0.0)) == InInterval
  {
    var o, e1, e2 := Vec2(0.0, 0.0), Vec2(1.0, 0.0), Vec2(2.0, 0.0);
    NotNearZero();
    OnXAxis(2.0, 1.0);
    assert !Eq(o, e1) && !Eq(e2, e1);
  }

  /** Seen from the origin, two points on the x-axis have zero turn area,
      and their offsets and dot products are the plain ones. */
  lemma OnXAxis(x1: real, x2: real)
    requires SnapsExactly(x1) && SnapsExactly(x2)
    ensures var o, p, q := Vec2(0.0, 0.0), Vec2(x1, 0.0), Vec2(x2, 0.0);
            && Sub(p, o) == p && Sub(q, o) == q
            && TurnArea(o, p, q) == 0.0
            && Dot(p, q) == x1 * x2 && Dot(p, p) == x1 * x1 && Dot(q, q) == x2 * x2
  {
    var o, p, q := Vec2(0.0, 0.0), Vec2(x1, 0.0), Vec2(x2, 0.0);
    SubUnsnapped(p, o);
    SubUnsnapped(q, o);
    assert Sub(p, o).coords == p.coords && Sub(q, o).coords == q.coords;
    Cross2DOf(x1, 0.0, x2, 0.0);
    DotOnXAxis(x1, x2);
    DotOnXAxis(x1, x1);
    DotOnXAxis(x2, x2);
  }

  lemma DotOnXAxis(x1: real, x2: real)
    ensures Dot(Vec2(x1, 0.0), Vec2(x2, 0.0)) == x1 * x2
  {
    var p, q := Vec2(x1, 0.0), Vec2(x2, 0.0);
    Dot2(p, q);
    assert X(p) == x1 && Y(p) == 0.0 && X(q) == x2 && Y(q) == 0.0;
  }

  lemma OrientationExamplesEndpoints()
    ensures Orientation2d(Vec2(0.0, 0.0), Vec2(1.0, 0.0), Vec2(0.0, 0.0)) == Origin
    ensures Orientation2d(Vec2(0.0, 0.0), Vec2(1.0, 0.0), Vec2(1.0, 0.0)) == Destination
  {
    NotNearZero();
    assert !Eq(Vec2(0.0, 0.0), Vec2(1.0, 0.0));
  }

  /** Unit-sized values are not within tolerance of each other. */
  lemma NotNearZero()
    ensures !IsEqual(1.0, 0.0) && !IsEqual(2.0, 0.0) && !IsEqual(-1.0, 0.0)
    ensures !IsEqual(0.0, 1.0) && !IsEqual(0.0, 2.0) && !IsEqual(0.0, -1.0)
    ensures !IsEqual(2.0, 1.0) && !IsEqual(1.0, 2.0) && !IsEqual(-1.0, 1.0) && !IsEqual(1.0, -1.0)
  {
  }

  /** Every coordinate of `v` is zero or away from zero, so the snapped
      operators act exactly on it. */
  predicate Unsnapped(v: Vector2) {
    SnapsExactly(X(v)) && SnapsExactly(Y(v))
  }

  /** Swapping the endpoints flips a strict turn, when no coordinate is
      snapped. */
  lemma SwapEndpointsFlipsTurn(a: Vector2, b: Vector2, c: Vector2)
    requires Unsnapped(a) && Unsnapped(b) && Unsnapped(c)
    ensures Orientation2d(a, b, c) == Positive <==> Orientation2d(b, a, c) == Negative
    ensures Orientation2d(a, b, c) == Negative <==> Orientation2d(b, a, c) == Positive
  {
    TurnAreaSwap(a, b, c);
    EqReflexiveSymmetric(a, c);
    EqReflexiveSymmetric(b, c);
  }

  lemma TurnAreaSwap(a: Vector2, b: Vector2, c: Vector2)
    requires Unsnapped(a) && Unsnapped(b) && Unsnapped(c)
    ensures TurnArea(b, a, c) == -TurnArea(a, b, c)
  {
    SubUnsnapped(b, a);
    SubUnsnapped(c, a);
    SubUnsnapped(a, b);
    SubUnsnapped(c, b);
    TurnAreaSwapExact(a, b, c);
  }

  /** The swap, once every difference involved is known to be exact. */
  lemma TurnAreaSwapExact(a: Vector2, b: Vector2, c: Vector2)
    requires Sub(b, a) == Vec2(X(b) - X(a), Y(b) - Y(a)) && Sub(c, a) == Vec2(X(c) - X(a), Y(c) - Y(a))
    requires Sub(a, b) == Vec2(X(a) - X(b), Y(a) - Y(b)) && Sub(c, b) == Vec2(X(c) - X(b), Y(c) - Y(b))
    ensures TurnArea(b, a, c) == -TurnArea(a, b, c)
  {
    var xa, ya, xb, yb, xc, yc := X(a), Y(a), X(b), Y(b), X(c), Y(c);
    assert TurnArea(a, b, c) == Cross2D(Vec2(xb - xa, yb - ya), Vec2(xc - xa, yc - ya)) / 2.0;
    assert TurnArea(b, a, c) == Cross2D(Vec2(xa - xb, ya - yb), Vec2(xc - xb, yc - yb)) / 2.0;
    CrossSwap(xa, ya, xb, yb, xc, yc);
  }

  lemma CrossSwap(xa: real, ya: real, xb: real, yb: real, xc: real, yc: real)
    ensures Cross2D(Vec2(xa - xb, ya - yb), Vec2(xc - xb, yc - yb))
         == -Cross2D(Vec2(xb - xa, yb - ya), Vec2(xc - xa, yc - ya))
  {
    Cross2DOf(xb - xa, yb - ya, xc - xa, yc - ya);
    Cross2DOf(xa - xb, ya - yb, xc - xb, yc - yb);
    CrossOfDifferences(xa, ya, xb, yb, xc, yc);
  }

  /** Between unsnapped points the snapped difference is the exact one. */
  lemma SubUnsnapped(a: Vector2, b: Vector2)
    requires Unsnapped(a) && Unsnapped(b)
    ensures Sub(a, b) == Vec2(X(a) - X(b), Y(a) - Y(b))
  {
    var d := Sub(a, b);
    SnapExactOnZeros(X(a), X(b));
    SnapExactOnZeros(Y(a), Y(b));
    assert d.coords[0] == X(a) - X(b);
    assert d.coords[1] == Y(a) - Y(b);
    assert d.coords == [X(a) - X(b), Y(a) - Y(b)];
  }

  lemma Cross2DOf(p: real, q: real, u: real, v: real)
    ensures Cross2D(Vec2(p, q), Vec2(u, v)) == p * v - q * u
  {
  }

  lemma CrossOfDifferences(xa: real, ya: real, xb: real, yb: real, xc: real, yc: real)
    ensures (xa - xb) * (yc - yb) - (ya - yb) * (xc - xb)
         == -((xb - xa) * (yc - ya) - (yb - ya) * (xc - xa))
  {
  }

  // ---------------------------------------------------------------------
  // Lexicographic order
  // ---------------------------------------------------------------------

  /** The comparator `LexicographicOrder` hands to the sort: x first, with
      a tolerant tie on x broken by y. */
  predicate ToleranceLexLess(a: Vector2, b: Vector2) {
    X(a) < X(b) || (IsEqual(X(a), X(b)) && Y(a) < Y(b))
  }

  /** The exact lexicographic order on (x, y) the model sorts by. */
  predicate LexLess(a: Vector2, b: Vector2) {
    X(a) < X(b) || (X(a) == X(b) && Y(a) < Y(b))
  }

  predicate LexLeq(a: Vector2, b: Vector2) {
    LexLess(a, b) || a == b
  }

  predicate SortedLex(s: seq<Vector2>) {
    forall i, j {:trigger LexLeq(s[i], s[j])} :: 0 <= i < j < |s| ==> LexLeq(s[i], s[j])
  }

  /** The source comparator is irreflexive and orders points with exactly
      equal x by y. */
  lemma ToleranceLexLessBasics(a: Vector2, b: Vector2)
    ensures !ToleranceLexLess(a, a)
    ensures X(a) == X(b) ==> (ToleranceLexLess(a, b) <==> Y(a) < Y(b))
  {
  }

  /** Two points whose x differ by less than EPS can each be "less" than
      the other, so the comparator is not a strict weak order. */
  lemma ToleranceLexLessNotAsymmetric()
    ensures ToleranceLexLess(Vec2(0.0, 1.0), Vec2(EPS / 2.0, 0.0))
    ensures ToleranceLexLess(Vec2(EPS / 2.0, 0.0), Vec2(0.0, 1.0))
  {
  }

  /** When x coordinates are exactly equal or at least EPS apart, the
      source comparator and the exact order agree. */
  lemma ComparatorsAgreeWhenSeparated(a: Vector2, b: Vector2)
    requires X(a) == X(b) || Abs(X(a) - X(b)) >= EPS
    ensures ToleranceLexLess(a, b) <==> LexLess(a, b)
  {
  }

  /** The exact order is a strict total order on 2-D points. */
  lemma LexLessStrictTotalOrder(a: Vector2, b: Vector2, c: Vector2)
    ensures !LexLess(a, a)
    ensures LexLess(a, b) ==> !LexLess(b, a)
    ensures LexLess(a, b) && LexLess(b, c) ==> LexLess(a, c)
    ensures a == b || LexLess(a, b) || LexLess(b, a)
  {
    if X(a) == X(b) && Y(a) == Y(b) {
      assert a.coords == [X(a), Y(a)] && b.coords == [X(b), Y(b)];
    }
  }

  /** Insertion of one point into a sorted sequence. */
  function InsertLex(p: Vector2, s: seq<Vector2>): (r: seq<Vector2>)
    requires SortedLex(s)
    ensures SortedLex(r)
    ensures multiset(r) == multiset(s) + multiset{p}
    decreases |s|
  {
    if |s| == 0 then [p]
    else if LexLeq(p, s[0]) then
      LexLeqTransitiveOverSorted(p, s);
      [p] + s
    else
      LexLessStrictTotalOrder(p, s[0], p);
      var rest := InsertLex(p, s[1..]);
      assert s == [s[0]] + s[1..];
      assert forall x :: x in multiset(rest) ==> x == p || x in s[1..];
      FirstBelowAll(s[0], rest, p, s);
      [s[0]] + rest
  }

  lemma LexLeqTransitiveOverSorted(p: Vector2, s: seq<Vector2>)
    requires SortedLex(s) && |s| > 0 && LexLeq(p, s[0])
    ensures SortedLex([p] + s)
  {
    forall j | 0 <= j < |s|
      ensures LexLeq(p, s[j])
    {
      if j > 0 {
        assert LexLeq(s[0], s[j]);
      }
      LexLessStrictTotalOrder(p, s[0], s[j]);
    }
  }

  lemma FirstBelowAll(first: Vector2, rest: seq<Vector2>, p: Vector2, s: seq<Vector2>)
    requires SortedLex(s) && |s| > 0 && first == s[0] && LexLess(first, p)
    requires SortedLex(rest)
    requires forall x :: x in multiset(rest) ==> x == p || x in s[1..]
    ensures SortedLex([first] + rest)
  {
    forall j | 0 <= j < |rest|
      ensures LexLeq(first, rest[j])
    {
      assert rest[j] in multiset(rest);
      if rest[j] != p {
        var k :| 0 <= k < |s[1..]| && s[1..][k] == rest[j];
        assert LexLeq(s[0], s[k + 1]);
      }
    }
  }

  /** `LexicographicOrder`: the points sorted by exact (x, y) order. */
  function LexicographicOrder(points: seq<Vector2>): (r: seq<Vector2>)
    ensures SortedLex(r)
    ensures multiset(r) == multiset(points)
    decreases |points|
  {
    if |points| == 0 then []
    else
      assert points == [points[0]] + points[1..];
      InsertLex(points[0], LexicographicOrder(points[1..]))
  }

}

=== FILE: line.dfy ===
/**
 The segment type of inc/math/Line.hpp: a pair of tolerantly distinct end
 points, its direction, segment membership and segment intersection via
 `Orientation2d`, and the free function `GetIntersection`.

 The source's `Line<T, dim>` is generic in the dimension, but `Contains`
 and `Intersects` call `Orientation2d`, which only exists for 2-D points;
 those members therefore require planar lines here.
 */
module Lines {
  import opened Tolerance
  import opened Wrappers
  import opened Vectors
  import opened GeomUtils

  datatype Line = Line(origin: Vector, dest: Vector)

  /** Both end points have the dimension of the template instance. */
  predicate SameDim(l: Line) {
    l.origin.Dim() == l.dest.Dim()
  }

  /** A `Line<float, 2>`. */
  predicate Planar(l: Line) {
    l.origin.Dim() == 2 && l.dest.Dim() == 2
  }

  /** The constructor: it throws when the two points coincide within tolerance. */
  function MakeLine(origin: Vector, dest: Vector): (r: Result<Line>)
    requires origin.Dim() == dest.Dim()
    ensures r.Failure? <==> Eq(dest, origin)
    ensures r.Failure? ==> r.error == RuntimeError("Require two unique points for a line")
    ensures r.Success? ==> r.value.origin == origin && r.value.dest == dest
    ensures r.Success? ==> SameDim(r.value) && !Eq(r.value.origin, r.value.dest)
  {
    EqReflexiveSymmetric(dest, origin);
    if Eq(dest, origin) then Failure(RuntimeError("Require two unique points for a line"))
    else Success(Line(origin, dest))
  }

  /** `GetDir()`: the snapped difference `dest - origin`, not normalised. */
  function GetDir(l: Line): (r: Vector)
    requires SameDim(l)
    ensures r.Dim() == l.origin.Dim()
    ensures Eq(r, Minus(l.dest, l.origin))
  {
    Sub(l.dest, l.origin)
  }

  /** Away from the snapping band the direction leads exactly from the
      origin to the destination. */
  lemma {:induction false} DirLeadsToDest(l: Line)
    requires SameDim(l)
    requires forall i :: 0 <= i < l.origin.Dim() ==>
               SnapsExactly(l.origin.coords[i]) && SnapsExactly(l.dest.coords[i])
    requires forall i :: 0 <= i < l.origin.Dim() ==> !IsEqual(l.dest.coords[i] - l.origin.coords[i], 0.0)
    ensures Add(l.origin, GetDir(l)) == l.dest
  {
    var d := GetDir(l);
    var s := Add(l.origin, d);
    forall i | 0 <= i < l.origin.Dim()
      ensures s.coords[i] == l.dest.coords[i]
    {
      SnapExactOnZeros(l.dest.coords[i], l.origin.coords[i]);
      SnapExactOnZeros(l.origin.coords[i], d.coords[i]);
      assert d.coords[i] == l.dest.coords[i] - l.origin.coords[i];
    }
    assert s.coords == l.dest.coords;
  }

  /** The direction of the test's 3-D line is `(3,3,3)`, of squared length
      27: it is not the unit vector the test table expects. */
  lemma GetDirExample()
    ensures MakeLine(Vec3(1.0, 2.0, 3.0), Vec3(4.0, 5.0, 6.0)).Success?
    ensures GetDir(Line(Vec3(1.0, 2.0, 3.0), Vec3(4.0, 5.0, 6.0))) == Vec3(3.0, 3.0, 3.0)
    ensures Dot(Vec3(3.0, 3.0, 3.0), Vec3(3.0, 3.0, 3.0)) == 27.0
  {
    var d := GetDir(Line(Vec3(1.0, 2.0, 3.0), Vec3(4.0, 5.0, 6.0)));
    assert d.coords[0] == 3.0 && d.coords[1] == 3.0 && d.coords[2] == 3.0;
    assert d.coords == [3.0, 3.0, 3.0];
    assert !IsEqual(6.0, 3.0);
    Dot3(Vec3(3.0, 3.0, 3.0), Vec3(3.0, 3.0, 3.0));
  }

  /** The constructor test: distinct points are stored as given; a repeated
      point is refused. */
  lemma MakeLineExamples()
    ensures MakeLine(Vec2(1.0, 2.0), Vec2(3.0, 4.0)) == Success(Line(Vec2(1.0, 2.0), Vec2(3.0, 4.0)))
    ensures MakeLine(Vec2(1.0, 2.0), Vec2(1.0, 2.0)).Failure?
  {
    assert !IsEqual(3.0, 1.0);
    EqReflexiveSymmetric(Vec2(1.0, 2.0), Vec2(1.0, 2.0));
  }

  // ---------------------------------------------------------------------
  // Membership and intersection
  // ---------------------------------------------------------------------

  /** `Contains(point)`: the point is an end point, or lies between them on
      the line through them. */
  predicate Contains(l: Line, p: Vector2)
    requires Planar(l)
    ensures Contains(l, p) <==>
              || Eq(l.origin, p)
              || Eq(l.dest, p)
              || (&& Apart(l.origin, l.dest, p)
                  && -EPS < TurnArea(l.origin, l.dest, p) < EPS
                  && Dot(Sub(l.dest, l.origin), Sub(p, l.origin)) >= 0.0
                  && Dot(Sub(p, l.origin), Sub(p, l.origin)) <= Dot(Sub(l.dest, l.origin), Sub(l.dest, l.origin)))
  {
    var orientation := Orientation2d(l.origin, l.dest, p);
    orientation == Origin || orientation == Destination || orientation == InInterval
  }

  /** Both end points belong to the segment. */
  lemma ContainsEndpoints(l: Line)
    requires Planar(l)
    ensures Contains(l, l.origin) && Contains(l, l.dest)
  {
    EqReflexiveSymmetric(l.origin, l.origin);
    EqReflexiveSymmetric(l.dest, l.dest);
  }

  /** An end point of either segment lies on the other. */
  predicate Touches(l: Line, m: Line)
    requires Planar(l) && Planar(m)
  {
    Contains(l, m.origin) || Contains(l, m.dest) || Contains(m, l.origin) || Contains(m, l.dest)
  }

  /** `Intersects(other)` for 2-D lines: when no end point lies on the
      other segment, the segments intersect exactly when each has one end
      point strictly to the right of the other (a signed area at or below
      `-EPS`) and one not. */
  function Intersects(l: Line, m: Line): (r: bool)
    requires Planar(l) && Planar(m)
    ensures Touches(l, m) ==> r
    ensures !Touches(l, m) ==>
              (r <==> && ((TurnArea(l.origin, l.dest, m.origin) <= -EPS) != (TurnArea(l.origin, l.dest, m.dest) <= -EPS))
                      && ((TurnArea(m.origin, m.dest, l.origin) <= -EPS) != (TurnArea(m.origin, m.dest, l.dest) <= -EPS)))
  {
    if Contains(l, m.origin) || Contains(l, m.dest) || Contains(m, l.origin) || Contains(m, l.dest) then
      true
    else
      var otherOrigin := Orientation2d(l.origin, l.dest, m.origin);
      var otherDest := Orientation2d(l.origin, l.dest, m.dest);
      var thisOrigin := Orientation2d(m.origin, m.dest, l.origin);
      var thisDest := Orientation2d(m.origin, m.dest, l.dest);
      Xor(otherOrigin == Negative, otherDest == Negative) && Xor(thisOrigin == Negative, thisDest == Negative)
  }

  /** Intersection does not depend on which segment asks. */
  lemma IntersectsSymmetric(l: Line, m: Line)
    requires Planar(l) && Planar(m)
    ensures Intersects(l, m) == Intersects(m, l)
  {
  }

  /** Every segment intersects itself. */
  lemma IntersectsSelf(l: Line)
    requires Planar(l)
    ensures Intersects(l, l)
  {
    ContainsEndpoints(l);
  }

  /** Two segments whose end points lie strictly on opposite sides of each
      other intersect. */
  lemma ProperCrossingIntersects(l: Line, m: Line)
    requires Planar(l) && Planar(m)
    requires {Orientation2d(l.origin, l.dest, m.origin), Orientation2d(l.origin, l.dest, m.dest)} == {Negative, Positive}
    requires {Orientation2d(m.origin, m.dest, l.origin), Orientation2d(m.origin, m.dest, l.dest)} == {Negative, Positive}
    ensures Intersects(l, m)
  {
    assert Orientation2d(l.origin, l.dest, m.origin) in {Negative, Positive};
    assert Orientation2d(m.origin, m.dest, l.origin) in {Negative, Positive};
  }

  /** A segment both of whose end points lie strictly on the same side of
      the other, and which touches nothing, does not intersect it. */
  lemma SameSideDoesNotIntersect(l: Line, m: Line, side: Orientation)
    requires Planar(l) && Planar(m) && !Touches(l, m)
    requires side == Negative || side == Positive
    requires Orientation2d(l.origin, l.dest, m.origin) == side
    requires Orientation2d(l.origin, l.dest, m.dest) == side
    ensures !Intersects(l, m)
  {
  }

  /** A strict turn read off the cross product of the snapped differences. */
  lemma StrictTurn(a: Vector2, b: Vector2, c: Vector2)
    requires Apart(a, b, c)
    ensures Cross2D(Sub(b, a), Sub(c, a)) >= 2.0 * EPS ==> Orientation2d(a, b, c) == Positive
    ensures Cross2D(Sub(b, a), Sub(c, a)) <= -2.0 * EPS ==> Orientation2d(a, b, c) == Negative
  {
  }

  lemma LeftTurnOf(a: Vector2, b: Vector2, c: Vector2, ab: Vector2, ac: Vector2)
    requires Apart(a, b, c) && Sub(b, a) == ab && Sub(c, a) == ac
    requires Cross2D(ab, ac) >= 1.0
    ensures Orientation2d(a, b, c) == Positive
  {
    StrictTurn(a, b, c);
  }

  lemma RightTurnOf(a: Vector2, b: Vector2, c: Vector2, ab: Vector2, ac: Vector2)
    requires Apart(a, b, c) && Sub(b, a) == ab && Sub(c, a) == ac
    requires Cross2D(ab, ac) <= -1.0
    ensures Orientation2d(a, b, c) == Negative
  {
    StrictTurn(a, b, c);
  }

  /** The diagonal from `(0,0)` to `(2,2)` has `(0,2)` on its left ... */
  lemma RisingDiagonalLeft()
    ensures Orientation2d(Vec2(0.0, 0.0), Vec2(2.0, 2.0), Vec2(0.0, 2.0)) == Positive
  {
    var p00, p22, p02 := Vec2(0.0, 0.0), Vec2(2.0, 2.0), Vec2(0.0, 2.0);
    NotNearZero();
    assert Sub(p22, p00) == p22 && Sub(p02, p00) == p02;
    assert !Eq(p00, p02) && !Eq(p22, p02);
    Cross2DOf(2.0, 2.0, 0.0, 2.0);
    LeftTurnOf(p00, p22, p02, p22, p02);
  }

  /** ... and `(2,0)` on its right. */
  lemma RisingDiagonalRight()
    ensures Orientation2d(Vec2(0.0, 0.0), Vec2(2.0, 2.0), Vec2(2.0, 0.0)) == Negative
  {
    var p00, p22, p20 := Vec2(0.0, 0.0), Vec2(2.0, 2.0), Vec2(2.0, 0.0);
    NotNearZero();
    assert Sub(p22, p00) == p22 && Sub(p20, p00) == p20;
    assert !Eq(p00, p20) && !Eq(p22, p20);
    Cross2DOf(2.0, 2.0, 2.0, 0.0);
    RightTurnOf(p00, p22, p20, p22, p20);
  }

  /** The diagonal from `(0,2)` to `(2,0)` has `(0,0)` on its right ... */
  lemma FallingDiagonalRight()
    ensures Orientation2d(Vec2(0.0, 2.0), Vec2(2.0, 0.0), Vec2(0.0, 0.0)) == Negative
  {
    var p00, p02, p20 := Vec2(0.0, 0.0), Vec2(0.0, 2.0), Vec2(2.0, 0.0);
    NotNearZero();
    assert Sub(p20, p02) == Vec2(2.0, -2.0) && Sub(p00, p02) == Vec2(0.0, -2.0);
    assert !Eq(p02, p00) && !Eq(p20, p00);
    Cross2DOf(2.0, -2.0, 0.0, -2.0);
    RightTurnOf(p02, p20, p00, Vec2(2.0, -2.0), Vec2(0.0, -2.0));
  }

  /** ... and `(2,2)` on its left. */
  lemma FallingDiagonalLeft()
    ensures Orientation2d(Vec2(0.0, 2.0), Vec2(2.0, 0.0), Vec2(2.0, 2.0)) == Positive
  {
    var p22, p02, p20 := Vec2(2.0, 2.0), Vec2(0.0, 2.0), Vec2(2.0, 0.0);
    NotNearZero();
    assert Sub(p20, p02) == Vec2(2.0, -2.0) && Sub(p22, p02) == Vec2(2.0, 0.0);
    assert !Eq(p02, p22) && !Eq(p20, p22);
    Cross2DOf(2.0, -2.0, 2.0, 0.0);
    LeftTurnOf(p02, p20, p22, Vec2(2.0, -2.0), Vec2(2.0, 0.0));
  }

  /** The two diagonals of the square `[0,2] x [0,2]` cross. */
  lemma IntersectsExampleCrossing()
    ensures Intersects(Line(Vec2(0.0, 0.0), Vec2(2.0, 2.0)), Line(Vec2(0.0, 2.0), Vec2(2.0, 0.0)))
  {
    RisingDiagonalLeft();
    RisingDiagonalRight();
    FallingDiagonalRight();
    FallingDiagonalLeft();
    ProperCrossingIntersects(Line(Vec2(0.0, 0.0), Vec2(2.0, 2.0)), Line(Vec2(0.0, 2.0), Vec2(2.0, 0.0)));
  }

  /** Both ends of the upper segment lie left of the lower one ... */
  lemma UpperLeftOfLowerAtStart()
    ensures Orientation2d(Vec2(0.0, 0.0), Vec2(2.0, 0.0), Vec2(0.0, 1.0)) == Positive
  {
    var p00, p20, p01 := Vec2(0.0, 0.0), Vec2(2.0, 0.0), Vec2(0.0, 1.0);
    NotNearZero();
    assert Sub(p20, p00) == p20 && Sub(p01, p00) == p01;
    assert !Eq(p00, p01) && !Eq(p20, p01);
    Cross2DOf(2.0, 0.0, 0.0, 1.0);
    LeftTurnOf(p00, p20, p01, p20, p01);
  }

  lemma UpperLeftOfLowerAtEnd()
    ensures Orientation2d(Vec2(0.0, 0.0), Vec2(2.0, 0.0), Vec2(2.0, 1.0)) == Positive
  {
    var p00, p20, p21 := Vec2(0.0, 0.0), Vec2(2.0, 0.0), Vec2(2.0, 1.0);
    NotNearZero();
    assert Sub(p20, p00) == p20 && Sub(p21, p00) == p21;
    assert !Eq(p00, p21) && !Eq(p20, p21);
    Cross2DOf(2.0, 0.0, 2.0, 1.0);
    LeftTurnOf(p00, p20, p21, p20, p21);
  }

  /** ... and both ends of the lower segment right of the upper one. */
  lemma LowerRightOfUpperAtStart()
    ensures Orientation2d(Vec2(0.0, 1.0), Vec2(2.0, 1.0), Vec2(0.0, 0.0)) == Negative
  {
    var p00, p01, p21 := Vec2(0.0, 0.0), Vec2(0.0, 1.0), Vec2(2.0, 1.0);
    NotNearZero();
    assert Sub(p21, p01) == Vec2(2.0, 0.0) && Sub(p00, p01) == Vec2(0.0, -1.0);
    assert !Eq(p01, p00) && !Eq(p21, p00);
    Cross2DOf(2.0, 0.0, 0.0, -1.0);
    RightTurnOf(p01, p21, p00, Vec2(2.0, 0.0), Vec2(0.0, -1.0));
  }

  lemma LowerRightOfUpperAtEnd()
    ensures Orientation2d(Vec2(0.0, 1.0), Vec2(2.0, 1.0), Vec2(2.0, 0.0)) == Negative
  {
    var p20, p01, p21 := Vec2(2.0, 0.0), Vec2(0.0, 1.0), Vec2(2.0, 1.0);
    NotNearZero();
    assert Sub(p21, p01) == Vec2(2.0, 0.0) && Sub(p20, p01) == Vec2(2.0, -1.0);
    assert !Eq(p01, p20) && !Eq(p21, p20);
    Cross2DOf(2.0, 0.0, 2.0, -1.0);
    RightTurnOf(p01, p21, p20, Vec2(2.0, 0.0), Vec2(2.0, -1.0));
  }

  /** Two parallel horizontal segments one unit apart do not intersect. */
  lemma IntersectsExampleParallel()
    ensures !Intersects(Line(Vec2(0.0, 0.0), Vec2(2.0, 0.0)), Line(Vec2(0.0, 1.0), Vec2(2.0, 1.0)))
  {
    UpperLeftOfLowerAtStart();
    UpperLeftOfLowerAtEnd();
    LowerRightOfUpperAtStart();
    LowerRightOfUpperAtEnd();
    SameSideDoesNotIntersect(Line(Vec2(0.0, 0.0), Vec2(2.0, 0.0)), Line(Vec2(0.0, 1.0), Vec2(2.0, 1.0)), Positive);
  }

  /** Collinear segments intersect when they overlap ... */
  lemma IntersectsExampleOverlap()
    ensures Intersects(Line(Vec2(0.0, 0.0), Vec2(2.0, 0.0)), Line(Vec2(1.0, 0.0), Vec2(3.0, 0.0)))
  {
    OrientationExampleInInterval();
    assert Contains(Line(Vec2(0.0, 0.0), Vec2(2.0, 0.0)), Vec2(1.0, 0.0));
  }

  /** Products of two horizontal offsets `(u,0)` and `(v,0)`: the cross
      product vanishes and the dot products are those of the offsets. */
  lemma HorizontalProducts(u: real, v: real)
    ensures Cross2D(Vec2(u, 0.0), Vec2(v, 0.0)) == 0.0
    ensures Dot(Vec2(u, 0.0), Vec2(v, 0.0)) == u * v
    ensures Dot(Vec2(u, 0.0), Vec2(u, 0.0)) == u * u
    ensures Dot(Vec2(v, 0.0), Vec2(v, 0.0)) == v * v
  {
    Cross2DOf(u, 0.0, v, 0.0);
    Dot2(Vec2(u, 0.0), Vec2(v, 0.0));
    Dot2(Vec2(u, 0.0), Vec2(u, 0.0));
    Dot2(Vec2(v, 0.0), Vec2(v, 0.0));
  }

  /** Past the end of the segment from `(0,0)` to `(1,0)` lies `(3,0)` ... */
  lemma ThreePastTheEnd()
    ensures Orientation2d(Vec2(0.0, 0.0), Vec2(1.0, 0.0), Vec2(3.0, 0.0)) == Beyond
  {
    var p0, p1, p3 := Vec2(0.0, 0.0), Vec2(1.0, 0.0), Vec2(3.0, 0.0);
    NotNearZero();
    assert !IsEqual(3.0, 0.0) && !IsEqual(3.0, 1.0) && !IsEqual(0.0, 3.0) && !IsEqual(1.0, 3.0);
    assert Sub(p1, p0) == p1 && Sub(p3, p0) == p3;
    assert !Eq(p0, p3) && !Eq(p1, p3);
    HorizontalProducts(1.0, 3.0);
  }

  /** ... while before the start of the segment from `(2,0)` to `(3,0)`
      lie `(0,0)` ... */
  lemma OriginBeforeTheStart()
    ensures Orientation2d(Vec2(2.0, 0.0), Vec2(3.0, 0.0), Vec2(0.0, 0.0)) == Behind
  {
    var p0, p1, p2, p3 := Vec2(0.0, 0.0), Vec2(1.0, 0.0), Vec2(2.0, 0.0), Vec2(3.0, 0.0);
    NotNearZero();
    assert !IsEqual(3.0, 0.0) && !IsEqual(3.0, 1.0) && !IsEqual(0.0, 3.0) && !IsEqual(-2.0, 0.0);
    assert Sub(p3, p2) == p1 && Sub(p0, p2) == Vec2(-2.0, 0.0);
    assert !Eq(p2, p0) && !Eq(p3, p0);
    HorizontalProducts(1.0, -2.0);
  }

  /** ... and `(1,0)` ... */
  lemma OneBeforeTheStart()
    ensures Orientation2d(Vec2(2.0, 0.0), Vec2(3.0, 0.0), Vec2(1.0, 0.0)) == Behind
  {
    var p1, p2, p3 := Vec2(1.0, 0.0), Vec2(2.0, 0.0), Vec2(3.0, 0.0);
    NotNearZero();
    assert !IsEqual(3.0, 0.0) && !IsEqual(3.0, 1.0) && !IsEqual(1.0, 3.0);
    assert Sub(p3, p2) == p1 && Sub(p1, p2) == Vec2(-1.0, 0.0);
    assert !Eq(p2, p1) && !Eq(p3, p1);
    HorizontalProducts(1.0, -1.0);
  }

  /** ... so the collinear disjoint segments do not intersect. */
  lemma IntersectsExampleDisjointCollinear()
    ensures !Intersects(Line(Vec2(0.0, 0.0), Vec2(1.0, 0.0)), Line(Vec2(2.0, 0.0), Vec2(3.0, 0.0)))
  {
    OrientationExampleBeyond();
    ThreePastTheEnd();
    OriginBeforeTheStart();
    OneBeforeTheStart();
  }

  // ---------------------------------------------------------------------
  // Intersection point
  // ---------------------------------------------------------------------

  /** `(-d.y, d.x)`: the direction turned a quarter to the left. */
  function Normal(d: Vector2): (r: Vector2)
    ensures Dot(r, d) == 0.0
    ensures Dot(r, r) == Dot(d, d)
  {
    var r := Vec2(-Y(d), X(d));
    Dot2(r, d);
    Dot2(r, r);
    Dot2(d, d);
    r
  }

  /** The denominator `GetIntersection` divides by: the normal of `b`
      against the direction of `a`, zero when the directions are parallel. */
  function Denominator(a: Line, b: Line): real
    requires Planar(a) && Planar(b)
  {
    Dot(Normal(GetDir(b)), GetDir(a))
  }

  /** The numerator: the normal of `b` against the vector from `b`'s origin
      to `a`'s. */
  function Numerator(a: Line, b: Line): real
    requires Planar(a) && Planar(b)
  {
    Dot(Normal(GetDir(b)), Sub(a.origin, b.origin))
  }

  /** `t` of `GetIntersection`: with `n` the normal of `b`, `w` the vector
      from `b`'s origin to `a`'s and `d` the direction of `a`, `t` solves
      `n . w - t (n . d) == 0`, that is, `a.origin - t d` lies on `b`'s line. */
  function Parameter(a: Line, b: Line): (t: real)
    requires Planar(a) && Planar(b)
    requires Denominator(a, b) != 0.0
    ensures Numerator(a, b) - t * Denominator(a, b) == 0.0
  {
    var num, den := Numerator(a, b), Denominator(a, b);
    var t := num / den;
    assert t * den == num;
    t
  }

  /** With a non-zero denominator the equation that `Parameter` solves has
      no other solution. */
  lemma UniqueSolution(num: real, den: real, s: real, t: real)
    requires den != 0.0
    requires num - s * den == 0.0 && num - t * den == 0.0
    ensures s == t
  {
    assert (s - t) * den == 0.0;
  }

  /** Both coordinates of `r` are within `bound` of those of `p`. */
  predicate Near(r: Vector2, p: Vector2, bound: real) {
    Abs(X(r) - X(p)) < bound && Abs(Y(r) - Y(p)) < bound
  }

  /** The exact point `o + s d`. */
  function PointAt(o: Vector2, d: Vector2, s: real): Vector2 {
    Vec2(X(o) + X(d) * s, Y(o) + Y(d) * s)
  }

  /** `o + d * k` with the snapped operators, written coordinate by
      coordinate (`PointAlongIsSnappedSum` shows it is `Add(o, Scale(d, k))`):
      each coordinate is within `EPS * (1 + k)` of the exact point. */
  function PointAlong(o: Vector2, d: Vector2, k: real): (r: Vector2)
    requires k >= 0.0
    ensures Near(r, PointAt(o, d, k), EPS * (1.0 + k))
  {
    var x := AlongCoordinate(X(o), X(d), k);
    var y := AlongCoordinate(Y(o), Y(d), k);
    var r := Vec2(x, y);
    assert X(r) == x && Y(r) == y;
    PointAtCoordinates(o, d, k);
    r
  }

  /** One coordinate of `o + d * k`: the two snapping steps cost at most
      `EPS` and `EPS * k`. */
  function AlongCoordinate(o: real, d: real, k: real): (r: real)
    requires k >= 0.0
    ensures Abs(r - (o + d * k)) < EPS * (1.0 + k)
  {
    SnapAlongBound(o, d, k);
    SnapAdd(o, SnapScale(d, k))
  }

  lemma PointAtCoordinates(o: Vector2, d: Vector2, s: real)
    ensures X(PointAt(o, d, s)) == X(o) + X(d) * s && Y(PointAt(o, d, s)) == Y(o) + Y(d) * s
  {
  }

  /** `PointAlong` is the source's expression `o + d * k`. */
  lemma PointAlongIsSnappedSum(o: Vector2, d: Vector2, k: real)
    requires k >= 0.0
    ensures PointAlong(o, d, k) == Add(o, Scale(d, k))
  {
    var r := Add(o, Scale(d, k));
    assert r.coords == [AlongCoordinate(X(o), X(d), k), AlongCoordinate(Y(o), Y(d), k)];
  }

  lemma SnapAlongBound(o: real, d: real, k: real)
    requires k >= 0.0
    ensures Abs(SnapAdd(o, SnapScale(d, k)) - (o + d * k)) < EPS * (1.0 + k)
  {
    var s := SnapScale(d, k);
    var r := SnapAdd(o, s);
    var dk, ek := d * k, EPS * k;
    assert Abs(k) == k;
    assert Abs(s - dk) <= ek;
    assert Abs(r - (o + s)) < EPS;
    ErrorBound(r, o, s, dk, ek);
    assert EPS * (1.0 + k) == EPS + ek;
  }

  /** The two rounding steps of `PointAlong` add up. */
  lemma ErrorBound(r: real, o: real, s: real, exact: real, bound: real)
    requires Abs(r - (o + s)) < EPS
    requires Abs(s - exact) <= bound
    ensures Abs(r - (o + exact)) < EPS + bound
  {
  }

  /** `GetIntersection(a, b)`: `a.origin + a.dir * |t|`, within
      `EPS * (1 + |t|)` of the exact point at parameter `|t|` on `a`'s line.
      A zero denominator is a division by zero in the source and is
      excluded. */
  function GetIntersection(a: Line, b: Line): (r: Vector2)
    requires Planar(a) && Planar(b)
    requires Denominator(a, b) != 0.0
    ensures Near(r, PointAt(a.origin, GetDir(a), Abs(Parameter(a, b))), EPS * (1.0 + Abs(Parameter(a, b))))
  {
    PointAlong(a.origin, GetDir(a), Abs(Parameter(a, b)))
  }

  /** `o + s d` lies on the line through `o` with direction `d`. */
  lemma PointAtOnLine(o: Vector2, d: Vector2, s: real)
    ensures var p := PointAt(o, d, s);
            Cross2D(Vec2(X(p) - X(o), Y(p) - Y(o)), d) == 0.0
  {
    var dx, dy := X(d), Y(d);
    var p := PointAt(o, d, s);
    assert X(p) - X(o) == dx * s && Y(p) - Y(o) == dy * s;
    Cross2DOf(dx * s, dy * s, dx, dy);
    ScaledCrossZero(s, dx, dy);
  }

  /** The offset of `o + s d` from `q` is `(o - q) + s d`. */
  lemma PointAtOffset(o: Vector2, q: Vector2, d: Vector2, s: real)
    ensures var p := PointAt(o, d, s);
            Vec2(X(p) - X(q), Y(p) - Y(q)) == PointAt(Vec2(X(o) - X(q), Y(o) - Y(q)), d, s)
  {
    var p := PointAt(o, d, s);
    var w := Vec2(X(o) - X(q), Y(o) - Y(q));
    PointAtCoordinates(o, d, s);
    PointAtCoordinates(w, d, s);
    var xd, yd := X(d) * s, Y(d) * s;
    assert X(p) - X(q) == X(w) + xd;
    assert Y(p) - Y(q) == Y(w) + yd;
    assert Vec2(X(p) - X(q), Y(p) - Y(q)).coords == PointAt(w, d, s).coords;
  }

  /** If `t` solves `n . w - t (n . d) == 0` then `w - t d` is orthogonal to `n`. */
  lemma SolvedShiftIsOrthogonal(n: Vector2, w: Vector2, d: Vector2, t: real)
    requires Dot(n, w) - t * Dot(n, d) == 0.0
    ensures Dot(n, PointAt(w, d, -t)) == 0.0
  {
    var q := PointAt(w, d, -t);
    Dot2(n, q);
    Dot2(n, w);
    Dot2(n, d);
    ProjectionOfShift(X(n), Y(n), X(w), Y(w), t, X(d), Y(d));
  }

  /** The meeting point of the lines: `a.origin - t a.dir` for the `t` that
      solves the equation of `Parameter`. It lies on `a`'s line and, when
      the origins are not snapped, on `b`'s line, whose normal is
      orthogonal to its offset from `b.origin`. */
  lemma MeetingPointOnBothLines(a: Line, b: Line, t: real)
    requires Planar(a) && Planar(b)
    requires Numerator(a, b) - t * Denominator(a, b) == 0.0
    requires Unsnapped(a.origin) && Unsnapped(b.origin)
    ensures var p := PointAt(a.origin, GetDir(a), -t);
            Cross2D(Vec2(X(p) - X(a.origin), Y(p) - Y(a.origin)), GetDir(a)) == 0.0
    ensures var p := PointAt(a.origin, GetDir(a), -t);
            Dot(Normal(GetDir(b)), Vec2(X(p) - X(b.origin), Y(p) - Y(b.origin))) == 0.0
  {
    PointAtOnLine(a.origin, GetDir(a), -t);
    SubUnsnapped(a.origin, b.origin);
    PointAtOffset(a.origin, b.origin, GetDir(a), -t);
    SolvedShiftIsOrthogonal(Normal(GetDir(b)), Sub(a.origin, b.origin), GetDir(a), t);
  }

  lemma ScaledCrossZero(t: real, dx: real, dy: real)
    ensures (dx * t) * dy - (dy * t) * dx == 0.0
  {
  }

  lemma ProjectionOfShift(nx: real, ny: real, wx: real, wy: real, t: real, dx: real, dy: real)
    ensures nx * (wx + dx * -t) + ny * (wy + dy * -t) == (nx * wx + ny * wy) - t * (nx * dx + ny * dy)
  {
  }

  /** The diagonals of `[0,2] x [0,2]` meet at `(1,1)`, and `GetIntersection`
      returns exactly that point. */
  lemma GetIntersectionExample()
    ensures var a, b := Line(Vec2(0.0, 0.0), Vec2(2.0, 2.0)), Line(Vec2(0.0, 2.0), Vec2(2.0, 0.0));
            Denominator(a, b) != 0.0 && GetIntersection(a, b) == Vec2(1.0, 1.0)
  {
    var a, b := Line(Vec2(0.0, 0.0), Vec2(2.0, 2.0)), Line(Vec2(0.0, 2.0), Vec2(2.0, 0.0));
    NotNearZero();
    assert GetDir(b) == Vec2(2.0, -2.0);
    assert Normal(GetDir(b)) == Vec2(2.0, 2.0);
    assert GetDir(a) == Vec2(2.0, 2.0);
    assert Sub(a.origin, b.origin) == Vec2(0.0, -2.0);
    Dot2(Vec2(2.0, 2.0), Vec2(2.0, 2.0));
    Dot2(Vec2(2.0, 2.0), Vec2(0.0, -2.0));
    assert Denominator(a, b) == 8.0;
    assert Numerator(a, b) == -4.0;
    assert Parameter(a, b) == -0.5;
    var scaled := Scale(GetDir(a), 0.5);
    assert scaled.coords == [1.0, 1.0];
    var r := Add(a.origin, scaled);
    assert r.coords == [1.0, 1.0];
  }
}

=== FILE: plane.dfy ===
/**
 The plane value type (inc/math/Plane.hpp): a normal vector and the offset
 `d` of the equation `normal . p == d`, built either from the pair or from
 three points.
 */
module Planes {
  import opened Tolerance
  import opened Wrappers
  import opened Vectors

  datatype Plane = Plane(normal: Vector3, d: real)

  /** Every coordinate of `v` is zero or away from zero, so that
      subtracting it is exact. */
  predicate Unsnapped3(v: Vector3) {
    SnapsExactly(X(v)) && SnapsExactly(Y(v)) && SnapsExactly(Z(v))
  }

  /** `Plane(normal, d)`: rejects a normal every coordinate of which is
      within tolerance of zero, and otherwise keeps both arguments. */
  function MakePlane(normal: Vector3, d: real): (r: Result<Plane>)
    ensures r.Failure? <==> forall i :: 0 <= i < 3 ==> IsEqual(normal.coords[i], 0.0)
    ensures r.Failure? ==> r.error == RuntimeError("Cannot create plane from zero normal vector")
    ensures r.Success? ==> r.value.normal == normal && r.value.d == d
  {
    if EqScalar(normal, 0.0) then
      Failure(RuntimeError("Cannot create plane from zero normal vector"))
    else
      Success(Plane(normal, d))
  }

  /** `Plane(p1, p2, p3)`: rejects any two tolerantly equal points; otherwise
      the normal is the cross product of the two edges leaving `p1`, which
      is orthogonal to both edges, and `d` places `p1` on the plane. */
  function PlaneFromPoints(p1: Vector3, p2: Vector3, p3: Vector3): (r: Result<Plane>)
    ensures r.Failure? <==> Eq(p1, p2) || Eq(p1, p3) || Eq(p2, p3)
    ensures r.Failure? ==> r.error == RuntimeError("Require three unique points to define a plane")
    ensures r.Success? ==> r.value.normal == Cross3D(Sub(p2, p1), Sub(p3, p1))
    ensures r.Success? ==> Dot(r.value.normal, Sub(p2, p1)) == 0.0
    ensures r.Success? ==> Dot(r.value.normal, Sub(p3, p1)) == 0.0
    ensures r.Success? ==> r.value.d == Dot(r.value.normal, p1)
  {
    if Eq(p1, p2) || Eq(p1, p3) || Eq(p2, p3) then
      Failure(RuntimeError("Require three unique points to define a plane"))
    else
      var v12 := Sub(p2, p1);
      var v13 := Sub(p3, p1);
      var normal := Cross3D(v12, v13);
      Cross3DProperties(v12, v13);
      DotSymmetric(normal, v12);
      DotSymmetric(normal, v13);
      Success(Plane(normal, Dot(normal, p1)))
  }

  /** All three points satisfy the plane equation when no coordinate was
      snapped by the subtractions. */
  lemma {:induction false} PointsOnPlane(p1: Vector3, p2: Vector3, p3: Vector3)
    requires Unsnapped3(p1) && Unsnapped3(p2) && Unsnapped3(p3)
    requires !Eq(p1, p2) && !Eq(p1, p3) && !Eq(p2, p3)
    ensures var r := PlaneFromPoints(p1, p2, p3);
            && r.Success?
            && Dot(r.value.normal, p1) == r.value.d
            && Dot(r.value.normal, p2) == r.value.d
            && Dot(r.value.normal, p3) == r.value.d
  {
    var n := PlaneFromPoints(p1, p2, p3).value.normal;
    SubExact3(p2, p1);
    SubExact3(p3, p1);
    OffsetOnPlane(n, p1, p2, Sub(p2, p1));
    OffsetOnPlane(n, p1, p3, Sub(p3, p1));
  }

  /** If `n` is orthogonal to the exact difference `e == q - p` then `q`
      has the same projection on `n` as `p`. */
  lemma OffsetOnPlane(n: Vector3, p: Vector3, q: Vector3, e: Vector3)
    requires X(e) == X(q) - X(p) && Y(e) == Y(q) - Y(p) && Z(e) == Z(q) - Z(p)
    requires Dot(n, e) == 0.0
    ensures Dot(n, q) == Dot(n, p)
  {
    Dot3(n, e);
    Dot3(n, q);
    Dot3(n, p);
    SplitProjection(X(n), Y(n), Z(n), X(p), Y(p), Z(p), X(q), Y(q), Z(q));
  }

  /** Between unsnapped points the snapped difference is the exact one. */
  lemma SubExact3(q: Vector3, p: Vector3)
    requires Unsnapped3(p) && Unsnapped3(q)
    ensures var e := Sub(q, p);
            X(e) == X(q) - X(p) && Y(e) == Y(q) - Y(p) && Z(e) == Z(q) - Z(p)
  {
    var e := Sub(q, p);
    SnapExactOnZeros(X(q), X(p));
    SnapExactOnZeros(Y(q), Y(p));
    SnapExactOnZeros(Z(q), Z(p));
    assert e.coords[0] == SnapSub(X(q), X(p));
    assert e.coords[1] == SnapSub(Y(q), Y(p));
    assert e.coords[2] == SnapSub(Z(q), Z(p));
  }

  lemma SplitProjection(nx: real, ny: real, nz: real, px: real, py: real, pz: real,
                        qx: real, qy: real, qz: real)
    ensures nx * qx + ny * qy + nz * qz
            == (nx * px + ny * py + nz * pz) + (nx * (qx - px) + ny * (qy - py) + nz * (qz - pz))
  {
  }

  /** The three-point test case: `(1,2,3)`, `(4,5,6)`, `(7,8,10)` give the
      normal `(3,-3,0)` and `d == -3`. */
  lemma PlaneFromPointsExample()
    ensures PlaneFromPoints(Vec3(1.0, 2.0, 3.0), Vec3(4.0, 5.0, 6.0), Vec3(7.0, 8.0, 10.0))
            == Success(Plane(Vec3(3.0, -3.0, 0.0), -3.0))
  {
    var p1, p2, p3 := Vec3(1.0, 2.0, 3.0), Vec3(4.0, 5.0, 6.0), Vec3(7.0, 8.0, 10.0);
    assert !IsEqual(1.0, 4.0) && !IsEqual(1.0, 7.0) && !IsEqual(4.0, 7.0);
    assert !Eq(p1, p2) && !Eq(p1, p3) && !Eq(p2, p3);
    assert Sub(p2, p1) == Vec3(3.0, 3.0, 3.0);
    assert Sub(p3, p1) == Vec3(6.0, 6.0, 7.0);
    assert Cross3D(Vec3(3.0, 3.0, 3.0), Vec3(6.0, 6.0, 7.0)) == Vec3(3.0, -3.0, 0.0);
    Dot3(Vec3(3.0, -3.0, 0.0), p1);
  }

  /** The normal-and-offset test case, and a rejected normal. */
  lemma MakePlaneExamples()
    ensures MakePlane(Vec3(1.0, 2.0, 3.0), 4.0) == Success(Plane(Vec3(1.0, 2.0, 3.0), 4.0))
    ensures MakePlane(Vec3(0.0, 0.0, 0.0), 4.0).Failure?
  {
    assert !IsEqual(1.0, 0.0);
    assert Vec3(1.0, 2.0, 3.0).coords[0] == 1.0;
  }

  /** Three distinct collinear points pass the three-point constructor, yet
      the normal they produce is one the normal-and-offset constructor
      rejects. */
  lemma CollinearPointsAccepted()
    ensures var r := PlaneFromPoints(Vec3(1.0, 1.0, 1.0), Vec3(2.0, 2.0, 2.0), Vec3(3.0, 3.0, 3.0));
            && r.Success?
            && r.value.normal == Vec3(0.0, 0.0, 0.0)
            && MakePlane(r.value.normal, r.value.d).Failure?
  {
    var p1, p2, p3 := Vec3(1.0, 1.0, 1.0), Vec3(2.0, 2.0, 2.0), Vec3(3.0, 3.0, 3.0);
    CollinearNormalIsZero(p1, p2, p3);
    var r := PlaneFromPoints(p1, p2, p3);
    ZeroNormalRejected(r.value.d);
  }

  lemma CollinearNormalIsZero(p1: Vector3, p2: Vector3, p3: Vector3)
    requires p1 == Vec3(1.0, 1.0, 1.0) && p2 == Vec3(2.0, 2.0, 2.0) && p3 == Vec3(3.0, 3.0, 3.0)
    ensures PlaneFromPoints(p1, p2, p3).Success?
    ensures PlaneFromPoints(p1, p2, p3).value.normal == Vec3(0.0, 0.0, 0.0)
  {
    assert !IsEqual(1.0, 2.0) && !IsEqual(1.0, 3.0) && !IsEqual(2.0, 3.0);
    assert !Eq(p1, p2) && !Eq(p1, p3) && !Eq(p2, p3);
    assert Sub(p2, p1) == Vec3(1.0, 1.0, 1.0);
    assert Sub(p3, p1) == Vec3(2.0, 2.0, 2.0);
    assert Cross3D(Vec3(1.0, 1.0, 1.0), Vec3(2.0, 2.0, 2.0)) == Vec3(0.0, 0.0, 0.0);
  }

  lemma ZeroNormalRejected(d: real)
    ensures MakePlane(Vec3(0.0, 0.0, 0.0), d).Failure?
  {
    assert IsEqual(0.0, 0.0);
  }

  /** The three-point constructor with the zero-normal check of the other
      constructor added: every plane it returns satisfies the invariant that
      the normal is not within tolerance of zero. */
  function PlaneFromPointsChecked(p1: Vector3, p2: Vector3, p3: Vector3): (r: Result<Plane>)
    ensures r.Failure? <==>
              || Eq(p1, p2) || Eq(p1, p3) || Eq(p2, p3)
              || EqScalar(Cross3D(Sub(p2, p1), Sub(p3, p1)), 0.0)
    ensures r.Success? ==> r == PlaneFromPoints(p1, p2, p3)
    ensures r.Success? ==> exists i :: 0 <= i < 3 && !IsEqual(r.value.normal.coords[i], 0.0)
  {
    match PlaneFromPoints(p1, p2, p3)
    case Failure(e) => Failure(e)
    case Success(plane) => MakePlane(plane.normal, plane.d)
  }

  /** The checked constructor rejects the collinear points above. */
  lemma CheckedRejectsCollinear()
    ensures PlaneFromPointsChecked(Vec3(1.0, 1.0, 1.0), Vec3(2.0, 2.0, 2.0), Vec3(3.0, 3.0, 3.0)).Failure?
  {
    CollinearPointsAccepted();
  }
}

=== FILE: tolerance.dfy ===
/**
 The tolerance comparator shared by every other part of the kernel
 (inc/math/Math.hpp). Coordinates are exact reals; the tolerance is an
 abstract positive constant standing for `100 * epsilon` of the scalar
 type.
 */
module Tolerance {

  /** The admissible tolerances. The upper bound only rules out absurdly
      large values (100 * FLT_EPSILON is about 1.2e-5, 100 * DBL_EPSILON
      about 2.2e-14); it lets unit-sized examples be told apart. */
  type Tolerance = r: real | 0.0 < r <= 0.001 witness 0.001

  /** The fixed tolerance. No initialiser: the proofs hold for every
      admissible value. */
  const TOLERANCE: Tolerance

  /** The tolerance as a plain real, so that `-EPS` and `2.0 * EPS` are reals. */
  const EPS: real := TOLERANCE

  function Abs(x: real): (r: real)
    ensures r >= 0.0
    ensures r == x || r == -x
  {
    if x < 0.0 then -x else x
  }

  /** `IsEqual`: two scalars are equal when they differ by less than EPS. */
  predicate IsEqual(x: real, y: real) {
    Abs(x - y) < EPS
  }

  /** `x` is exactly zero or outside the band around zero, so snapping it
      to zero does not move it. */
  predicate SnapsExactly(x: real) {
    x == 0.0 || !IsEqual(x, 0.0)
  }

  /** `_xor`: exclusive or of two booleans. */
  function Xor(a: bool, b: bool): (r: bool)
    ensures r <==> a != b
  {
    (a || b) && !(a && b)
  }

  /** The comparator accepts exactly the open band of width 2 * EPS around y. */
  lemma IsEqualBand(x: real, y: real)
    ensures IsEqual(x, y) <==> y - EPS < x < y + EPS
  {
  }

  lemma IsEqualReflexive(x: real)
    ensures IsEqual(x, x)
  {
  }

  lemma IsEqualSymmetric(x: real, y: real)
    ensures IsEqual(x, y) <==> IsEqual(y, x)
  {
  }

  /** Half a tolerance away is still equal; two tolerances away is not. */
  lemma IsEqualExamples(x: real)
    ensures IsEqual(x, x + EPS / 2.0)
    ensures !IsEqual(x, x + 2.0 * EPS)
  {
  }

  /** The comparator is not transitive: 0 ~ EPS/2 ~ EPS, but 0 is not ~ EPS. */
  lemma IsEqualNotTransitive()
    ensures IsEqual(0.0, EPS / 2.0) && IsEqual(EPS / 2.0, EPS) && !IsEqual(0.0, EPS)
  {
  }

  /** `_xor` is commutative and never holds of two equal arguments. */
  lemma XorProperties(a: bool, b: bool)
    ensures Xor(a, b) == Xor(b, a)
    ensures !Xor(a, a)
  {
  }
}

=== FILE: vector.dfy ===
/**
 The fixed-dimension vector of inc/math/Vector.hpp (`Vector<T, dim>`) and
 its free functions `Dot`, `Cross2D` and `Cross3D`. Points are the same
 type (inc/math/Point.hpp only introduces aliases).

 The dimension is a template parameter in the source, so operations that
 combine two vectors require equal dimensions: a mismatch does not compile
 there. The arithmetic operators replace a coordinate that is within EPS
 of zero by an exact zero (or let it contribute nothing); that snapping is
 modelled coordinate by coordinate below.
 */
module Vectors {
  import opened Tolerance
  import opened Wrappers

  datatype Vector = Vector(coords: seq<real>) {
    function Dim(): nat {
      |coords|
    }
  }

  /** `Vector2f` / `Point2f` and `Vector3f` / `Point3f`. */
  type Vector2 = v: Vector | |v.coords| == 2 witness Vector([0.0, 0.0])
  type Vector3 = v: Vector | |v.coords| == 3 witness Vector([0.0, 0.0, 0.0])

  // ---------------------------------------------------------------------
  // Construction and access
  // ---------------------------------------------------------------------

  /** The default constructor value-initialises every coordinate. */
  function Zero(dim: nat): (r: Vector)
    requires dim >= 2
    ensures r.Dim() == dim
    ensures forall i :: 0 <= i < dim ==> r.coords[i] == 0.0
  {
    Vector(seq(dim, _ => 0.0))
  }

  function Vec2(x: real, y: real): Vector2 {
    Vector([x, y])
  }

  function Vec3(x: real, y: real, z: real): Vector3 {
    Vector([x, y, z])
  }

  /** Named accessors; `x()` and `y()` exist only for dimension at most 3,
      `z()` only for dimension 3. */
  function X(v: Vector): real
    requires 2 <= v.Dim() <= 3
  {
    v.coords[0]
  }

  function Y(v: Vector): real
    requires 2 <= v.Dim() <= 3
  {
    v.coords[1]
  }

  function Z(v: Vector3): real {
    v.coords[2]
  }

  /** `operator[]`: an index at or past the dimension is out of range. */
  function At(v: Vector, idx: nat): (r: Result<real>)
    ensures r.Failure? <==> idx >= v.Dim()
    ensures r.Success? ==> r.value == v.coords[idx]
    ensures r.Failure? ==> r.error == OutOfRange("Vector index out of range")
  {
    if idx >= v.Dim() then Failure(OutOfRange("Vector index out of range"))
    else Success(v.coords[idx])
  }

  // ---------------------------------------------------------------------
  // Tolerant equality
  // ---------------------------------------------------------------------

  /** The `std::equal` walk behind `operator==(const Vector&)`. */
  function AllPairsEqual(a: seq<real>, b: seq<real>): (r: bool)
    requires |a| == |b|
    ensures r <==> forall i :: 0 <= i < |a| ==> IsEqual(a[i], b[i])
  {
    if |a| == 0 then true
    else IsEqual(a[0], b[0]) && AllPairsEqual(a[1..], b[1..])
  }

  /** The `std::all_of` walk behind `operator==(const T)`. */
  function AllEqualTo(a: seq<real>, s: real): (r: bool)
    ensures r <==> forall i :: 0 <= i < |a| ==> IsEqual(a[i], s)
  {
    if |a| == 0 then true
    else IsEqual(a[0], s) && AllEqualTo(a[1..], s)
  }

  /** `v == w`. */
  predicate Eq(a: Vector, b: Vector)
    requires a.Dim() == b.Dim()
  {
    AllPairsEqual(a.coords, b.coords)
  }

  /** `v != w`. */
  predicate NotEq(a: Vector, b: Vector)
    requires a.Dim() == b.Dim()
  {
    !Eq(a, b)
  }

  /** `v == s` for a scalar `s`, broadcast to every coordinate. */
  predicate EqScalar(a: Vector, s: real) {
    AllEqualTo(a.coords, s)
  }

  /** `v != s`. */
  predicate NotEqScalar(a: Vector, s: real) {
    !EqScalar(a, s)
  }

  // ---------------------------------------------------------------------
  // Snapped arithmetic, one coordinate at a time
  // ---------------------------------------------------------------------

  /** A coordinate of `v + w`: an operand within EPS of zero contributes nothing. */
  function SnapAdd(a: real, b: real): (r: real)
    ensures IsEqual(r, a + b)
    ensures !IsEqual(a, 0.0) && !IsEqual(b, 0.0) ==> r == a + b
  {
    if IsEqual(a, 0.0) then b else if IsEqual(b, 0.0) then a else a + b
  }

  /** A coordinate of `v - w`. */
  function SnapSub(a: real, b: real): (r: real)
    ensures IsEqual(r, a - b)
    ensures !IsEqual(a, 0.0) && !IsEqual(b, 0.0) ==> r == a - b
  {
    if IsEqual(a, 0.0) then -b else if IsEqual(b, 0.0) then a else a - b
  }

  /** Snapping leaves an exact zero where it is, so `+` and `-` are also
      exact on operands that are zero or away from zero. */
  lemma SnapExactOnZeros(a: real, b: real)
    ensures SnapsExactly(a) && SnapsExactly(b) ==> SnapAdd(a, b) == a + b && SnapSub(a, b) == a - b
  {
  }

  /** A coordinate of `-v`: exactly zero precisely when the input is near zero. */
  function SnapNeg(a: real): (r: real)
    ensures IsEqual(r, -a)
    ensures r == 0.0 <==> IsEqual(a, 0.0)
    ensures !IsEqual(a, 0.0) ==> r == -a
  {
    if IsEqual(a, 0.0) then 0.0 else -a
  }

  /** A coordinate of `v * s`: near-zero coordinates become exactly zero. */
  function SnapScale(a: real, s: real): (r: real)
    ensures Abs(r - a * s) <= EPS * Abs(s)
    ensures IsEqual(a, 0.0) ==> r == 0.0
    ensures !IsEqual(a, 0.0) ==> r == a * s
  {
    if IsEqual(a, 0.0) then 0.0 else a * s
  }

  /** A coordinate of `v + s` for a scalar `s`. */
  function SnapAddScalar(a: real, s: real): (r: real)
    ensures IsEqual(r, a + s)
    ensures !IsEqual(a, 0.0) ==> r == a + s
  {
    if IsEqual(a, 0.0) then s else a + s
  }

  // ---------------------------------------------------------------------
  // Vector operators
  // ---------------------------------------------------------------------

  /** The exact coordinatewise sum, the reference the snapped `+` approximates. */
  function Plus(a: Vector, b: Vector): (r: Vector)
    requires a.Dim() == b.Dim()
    ensures r.Dim() == a.Dim()
  {
    Vector(seq(a.Dim(), i requires 0 <= i < a.Dim() => a.coords[i] + b.coords[i]))
  }

  /** The exact coordinatewise difference. */
  function Minus(a: Vector, b: Vector): (r: Vector)
    requires a.Dim() == b.Dim()
    ensures r.Dim() == a.Dim()
  {
    Vector(seq(a.Dim(), i requires 0 <= i < a.Dim() => a.coords[i] - b.coords[i]))
  }

  /** `v + w`. */
  function Add(a: Vector, b: Vector): (r: Vector)
    requires a.Dim() == b.Dim()
    ensures r.Dim() == a.Dim()
    ensures Eq(r, Plus(a, b))
    ensures forall i :: 0 <= i < a.Dim() && !IsEqual(a.coords[i], 0.0) && !IsEqual(b.coords[i], 0.0) ==>
              r.coords[i] == a.coords[i] + b.coords[i]
  {
    Vector(seq(a.Dim(), i requires 0 <= i < a.Dim() => SnapAdd(a.coords[i], b.coords[i])))
  }

  /** `v - w`. */
  function Sub(a: Vector, b: Vector): (r: Vector)
    requires a.Dim() == b.Dim()
    ensures r.Dim() == a.Dim()
    ensures Eq(r, Minus(a, b))
    ensures forall i :: 0 <= i < a.Dim() && !IsEqual(a.coords[i], 0.0) && !IsEqual(b.coords[i], 0.0) ==>
              r.coords[i] == a.coords[i] - b.coords[i]
  {
    Vector(seq(a.Dim(), i requires 0 <= i < a.Dim() => SnapSub(a.coords[i], b.coords[i])))
  }

  /** Unary `-v`. */
  function Neg(a: Vector): (r: Vector)
    ensures r.Dim() == a.Dim()
    ensures forall i :: 0 <= i < a.Dim() ==> IsEqual(r.coords[i], -a.coords[i])
    ensures forall i :: 0 <= i < a.Dim() ==> (r.coords[i] == 0.0 <==> IsEqual(a.coords[i], 0.0))
    ensures forall i :: 0 <= i < a.Dim() && !IsEqual(a.coords[i], 0.0) ==> r.coords[i] == -a.coords[i]
  {
    Vector(seq(a.Dim(), i requires 0 <= i < a.Dim() => SnapNeg(a.coords[i])))
  }

  /** `v * s`. */
  function Scale(a: Vector, s: real): (r: Vector)
    ensures r.Dim() == a.Dim()
    ensures forall i :: 0 <= i < a.Dim() ==> Abs(r.coords[i] - a.coords[i] * s) <= EPS * Abs(s)
    ensures forall i :: 0 <= i < a.Dim() && IsEqual(a.coords[i], 0.0) ==> r.coords[i] == 0.0
    ensures forall i :: 0 <= i < a.Dim() && !IsEqual(a.coords[i], 0.0) ==> r.coords[i] == a.coords[i] * s
  {
    Vector(seq(a.Dim(), i requires 0 <= i < a.Dim() => SnapScale(a.coords[i], s)))
  }

  /** `v + s` for a scalar `s`. */
  function AddScalar(a: Vector, s: real): (r: Vector)
    ensures r.Dim() == a.Dim()
    ensures forall i :: 0 <= i < a.Dim() ==> IsEqual(r.coords[i], a.coords[i] + s)
    ensures forall i :: 0 <= i < a.Dim() && !IsEqual(a.coords[i], 0.0) ==> r.coords[i] == a.coords[i] + s
  {
    Vector(seq(a.Dim(), i requires 0 <= i < a.Dim() => SnapAddScalar(a.coords[i], s)))
  }

  /** `v - s` for a scalar `s`: the one operator without snapping. */
  function SubScalar(a: Vector, s: real): (r: Vector)
    ensures r.Dim() == a.Dim()
    ensures forall i :: 0 <= i < a.Dim() ==> r.coords[i] + s == a.coords[i]
  {
    Vector(seq(a.Dim(), i requires 0 <= i < a.Dim() => a.coords[i] - s))
  }

  // ---------------------------------------------------------------------
  // Products
  // ---------------------------------------------------------------------

  /** The accumulation loop of `Dot`, first index added first. */
  function SumOfProducts(a: seq<real>, b: seq<real>): real
    requires |a| == |b|
    decreases |a|
  {
    if |a| == 0 then 0.0
    else SumOfProducts(a[..|a| - 1], b[..|b| - 1]) + a[|a| - 1] * b[|b| - 1]
  }

  /** `Dot(a, b)`: the sum of the coordinate products. */
  function Dot(a: Vector, b: Vector): real
    requires a.Dim() == b.Dim()
  {
    SumOfProducts(a.coords, b.coords)
  }

  /** `Cross2D(a, b)`: twice the signed area of the triangle (0, a, b). */
  function Cross2D(a: Vector2, b: Vector2): real {
    X(a) * Y(b) - Y(a) * X(b)
  }

  /** `Cross3D(a, b)`: the vector product, built without snapping. */
  function Cross3D(a: Vector3, b: Vector3): Vector3 {
    Vec3(Y(a) * Z(b) - Z(a) * Y(b),
         Z(a) * X(b) - X(a) * Z(b),
         X(a) * Y(b) - Y(a) * X(b))
  }

  // ---------------------------------------------------------------------
  // Normalisation
  // ---------------------------------------------------------------------

  /** `Normalise()` (and the in-place `ToUnitVector()`, which computes the
      same coordinates). `Norm()` takes a square root, which is not
      modelled: the caller passes the norm, pinned down by the requires. */
  function Normalise(v: Vector, norm: real): (r: Result<Vector>)
    requires norm >= 0.0 && norm * norm == Dot(v, v)
    ensures r.Failure? <==> Dot(v, v) < EPS * EPS
    ensures r.Failure? ==> r.error == RuntimeError("Tried to normalize a vector with zero norm")
    ensures r.Success? ==> r.value.Dim() == v.Dim() && Dot(r.value, r.value) == 1.0
    ensures r.Success? ==> forall i :: 0 <= i < v.Dim() ==> r.value.coords[i] * norm == v.coords[i]
  {
    if IsEqual(norm, 0.0) then
      SmallNormIffSmallSquare(norm, Dot(v, v));
      Failure(RuntimeError("Tried to normalize a vector with zero norm"))
    else
      SmallNormIffSmallSquare(norm, Dot(v, v));
      SquareStrictMonotone(0.0, norm);
      var d := DivideAll(v.coords, norm);
      DividedSumOfSquares(v.coords, norm);
      var k := norm * norm;
      assert k != 0.0;
      assert SumOfProducts(d, d) * k == SumOfProducts(v.coords, v.coords);
      assert SumOfProducts(v.coords, v.coords) == k;
      UnitFromScaledSquare(SumOfProducts(d, d), k);
      Success(Vector(d))
  }

  /** Every coordinate divided by `n`. */
  function DivideAll(a: seq<real>, n: real): (r: seq<real>)
    requires n != 0.0
    ensures |r| == |a|
    ensures forall i :: 0 <= i < |a| ==> r[i] * n == a[i]
  {
    seq(|a|, i requires 0 <= i < |a| => a[i] / n)
  }

  lemma SmallNormIffSmallSquare(norm: real, sq: real)
    requires norm >= 0.0 && norm * norm == sq
    ensures IsEqual(norm, 0.0) <==> sq < EPS * EPS
  {
    if norm < EPS {
      SquareStrictMonotone(norm, EPS);
    } else {
      SquareMonotone(EPS, norm);
    }
  }

  lemma SquareStrictMonotone(x: real, y: real)
    requires 0.0 <= x < y
    ensures x * x < y * y
  {
    var xx, xy, yy := x * x, x * y, y * y;
    assert xx <= xy;
    assert xy < yy;
  }

  lemma SquareMonotone(x: real, y: real)
    requires 0.0 <= x <= y
    ensures x * x <= y * y
  {
    var xx, xy, yy := x * x, x * y, y * y;
    assert xx <= xy;
    assert xy <= yy;
  }

  lemma UnitFromScaledSquare(s: real, k: real)
    requires k != 0.0 && s * k == k
    ensures s == 1.0
  {
    assert (s - 1.0) * k == 0.0;
  }

  lemma SquareZero(x: real)
    requires x * x == 0.0
    ensures x == 0.0
  {
    if x > 0.0 {
      SquareStrictMonotone(0.0, x);
    } else if x < 0.0 {
      SquareStrictMonotone(0.0, -x);
    }
  }

  lemma {:induction false} DividedSumOfSquares(a: seq<real>, n: real)
    requires n != 0.0
    ensures SumOfProducts(DivideAll(a, n), DivideAll(a, n)) * (n * n) == SumOfProducts(a, a)
    decreases |a|
  {
    var d := DivideAll(a, n);
    if |a| > 0 {
      var a' := a[..|a| - 1];
      var d' := DivideAll(a', n);
      DivideAllPrefix(a, n);
      DividedSumOfSquares(a', n);
      var last, dl := a[|a| - 1], d[|d| - 1];
      assert dl * n == last;
      assert SumOfProducts(d, d) == SumOfProducts(d', d') + dl * dl;
      assert SumOfProducts(a, a) == SumOfProducts(a', a') + last * last;
      SplitSquareScale(SumOfProducts(d', d'), dl, n, last, SumOfProducts(a', a'));
    }
  }

  lemma DivideAllPrefix(a: seq<real>, n: real)
    requires n != 0.0 && |a| > 0
    ensures DivideAll(a, n)[..|a| - 1] == DivideAll(a[..|a| - 1], n)
  {
    var d, d' := DivideAll(a, n), DivideAll(a[..|a| - 1], n);
    forall i | 0 <= i < |a| - 1
      ensures d[i] == d'[i]
    {
      assert d[i] == a[i] / n;
      assert d'[i] == a[..|a| - 1][i] / n;
    }
  }

  lemma SplitSquareScale(rest: real, dl: real, n: real, last: real, restA: real)
    requires dl * n == last
    requires rest * (n * n) == restA
    ensures (rest + dl * dl) * (n * n) == restA + last * last
  {
    var sq := dl * dl;
    assert (rest + sq) * (n * n) == rest * (n * n) + sq * (n * n);
    assert sq * (n * n) == (dl * n) * (dl * n);
  }

  // ---------------------------------------------------------------------
  // Properties
  // ---------------------------------------------------------------------

  /** A default-constructed vector equals the scalar 0 and has zero squared norm. */
  lemma ZeroIsZero(dim: nat)
    requires dim >= 2
    ensures EqScalar(Zero(dim), 0.0)
    ensures Dot(Zero(dim), Zero(dim)) == 0.0
  {
    SumOfSquaresZero(Zero(dim).coords);
  }

  /** Tolerant vector equality is reflexive and symmetric. */
  lemma EqReflexiveSymmetric(a: Vector, b: Vector)
    requires a.Dim() == b.Dim()
    ensures Eq(a, a)
    ensures Eq(a, b) <==> Eq(b, a)
    ensures NotEq(a, b) <==> !Eq(a, b)
  {
  }

  /** ... but not transitive. */
  lemma EqNotTransitive()
    ensures Eq(Vec2(0.0, 0.0), Vec2(EPS / 2.0, 0.0))
    ensures Eq(Vec2(EPS / 2.0, 0.0), Vec2(EPS, 0.0))
    ensures !Eq(Vec2(0.0, 0.0), Vec2(EPS, 0.0))
  {
  }

  /** Test-table values for equality. */
  lemma EqExamples()
    ensures Eq(Vec2(1.0, 2.0), Vector([1.0, 2.0]))
    ensures NotEq(Vec3(1.0, 2.0, 3.0), Vec3(1.0, 2.0, 4.0))
  {
    assert !IsEqual(3.0, 4.0);
  }

  /** Indexing reads the coordinate; index 3 of a 3-vector is out of range. */
  lemma AtExamples(v: Vector3)
    ensures At(v, 2) == Success(Z(v))
    ensures At(v, 3).Failure? && At(v, 3).error.OutOfRange?
  {
  }

  /** `(1,2,3) + (3,4,5) == (4,6,8)` and `(1,2,3) - (3,4,5) == (-2,-2,-2)` exactly. */
  lemma ArithmeticExamples()
    ensures Add(Vec3(1.0, 2.0, 3.0), Vec3(3.0, 4.0, 5.0)) == Vec3(4.0, 6.0, 8.0)
    ensures Sub(Vec3(1.0, 2.0, 3.0), Vec3(3.0, 4.0, 5.0)) == Vec3(-2.0, -2.0, -2.0)
    ensures Neg(Vec3(3.0, 4.0, 5.0)) == Vec3(-3.0, -4.0, -5.0)
  {
    assert !IsEqual(1.0, 0.0) && !IsEqual(3.0, 0.0);
  }

  /** The default vector is an exact left identity of `+`, but only a
      tolerant right identity: `v + 0` snaps near-zero coordinates of `v`. */
  lemma AddZeroIdentity(v: Vector)
    requires v.Dim() >= 2
    ensures Add(Zero(v.Dim()), v) == v
    ensures Eq(Add(v, Zero(v.Dim())), v)
  {
    var r := Add(Zero(v.Dim()), v);
    assert forall i :: 0 <= i < v.Dim() ==> r.coords[i] == v.coords[i];
  }

  /** Snapping makes `+` fail even tolerant commutativity for two near-zero coordinates. */
  lemma AddNotTolerantlyCommutative()
    ensures NotEq(Add(Vec2(0.9 * EPS, 1.0), Vec2(-0.9 * EPS, 1.0)),
                  Add(Vec2(-0.9 * EPS, 1.0), Vec2(0.9 * EPS, 1.0)))
  {
    var l := Add(Vec2(0.9 * EPS, 1.0), Vec2(-0.9 * EPS, 1.0));
    var r := Add(Vec2(-0.9 * EPS, 1.0), Vec2(0.9 * EPS, 1.0));
    assert l.coords[0] == -0.9 * EPS;
    assert r.coords[0] == 0.9 * EPS;
  }

  /** `-(-v) == v` tolerantly, and exactly when no coordinate is near zero. */
  lemma DoubleNegation(v: Vector)
    ensures Eq(Neg(Neg(v)), v)
    ensures (forall i :: 0 <= i < v.Dim() ==> !IsEqual(v.coords[i], 0.0)) ==> Neg(Neg(v)) == v
  {
    var n := Neg(Neg(v));
    if forall i :: 0 <= i < v.Dim() ==> !IsEqual(v.coords[i], 0.0) {
      assert forall i :: 0 <= i < v.Dim() ==> n.coords[i] == v.coords[i];
    }
  }

  /** Every coordinate of `v + (-v)` is exactly zero. */
  lemma AddNegationIsZero(v: Vector)
    requires v.Dim() >= 2
    ensures Add(v, Neg(v)) == Zero(v.Dim())
  {
    var r := Add(v, Neg(v));
    forall i | 0 <= i < v.Dim()
      ensures r.coords[i] == 0.0
    {
      var a := v.coords[i];
      assert Neg(v).coords[i] == SnapNeg(a);
    }
  }

  /** `v - v == 0.0` (as a scalar comparison). */
  lemma SubSelfIsZero(v: Vector)
    ensures EqScalar(Sub(v, v), 0.0)
  {
    var r := Sub(v, v);
    assert forall i :: 0 <= i < v.Dim() ==> r.coords[i] == SnapSub(v.coords[i], v.coords[i]);
  }

  /** The scalar `*` keeps near-zero coordinates at exactly zero, and
      scaling by one changes a vector only within tolerance. */
  lemma ScaleByOne(v: Vector)
    ensures Eq(Scale(v, 1.0), v)
  {
  }

  /** `Dot` is symmetric. */
  lemma {:induction false} DotSymmetric(a: Vector, b: Vector)
    requires a.Dim() == b.Dim()
    ensures Dot(a, b) == Dot(b, a)
  {
    SumOfProductsSymmetric(a.coords, b.coords);
  }

  lemma {:induction false} SumOfProductsSymmetric(a: seq<real>, b: seq<real>)
    requires |a| == |b|
    ensures SumOfProducts(a, b) == SumOfProducts(b, a)
    decreases |a|
  {
    if |a| > 0 {
      SumOfProductsSymmetric(a[..|a| - 1], b[..|b| - 1]);
    }
  }

  /** `Dot(v, v)`, the squared norm, is non-negative and zero only for the zero vector. */
  lemma {:induction false} DotSelf(v: Vector)
    ensures Dot(v, v) >= 0.0
    ensures Dot(v, v) == 0.0 <==> forall i :: 0 <= i < v.Dim() ==> v.coords[i] == 0.0
  {
    SumOfSquaresNonNegative(v.coords);
    SumOfSquaresZero(v.coords);
  }

  lemma {:induction false} SumOfSquaresNonNegative(a: seq<real>)
    ensures SumOfProducts(a, a) >= 0.0
    decreases |a|
  {
    if |a| > 0 {
      SumOfSquaresNonNegative(a[..|a| - 1]);
    }
  }

  lemma {:induction false} SumOfSquaresZero(a: seq<real>)
    ensures SumOfProducts(a, a) == 0.0 <==> forall i :: 0 <= i < |a| ==> a[i] == 0.0
    decreases |a|
  {
    if |a| > 0 {
      var a' := a[..|a| - 1];
      SumOfSquaresZero(a');
      SumOfSquaresNonNegative(a');
      if SumOfProducts(a, a) == 0.0 {
        var last := a[|a| - 1];
        assert last * last >= 0.0;
        SquareZero(last);
        assert forall i :: 0 <= i < |a| - 1 ==> a[i] == a'[i];
      }
    }
  }

  /** `Dot` written out for the two fixed dimensions. */
  lemma Dot2(a: Vector2, b: Vector2)
    ensures Dot(a, b) == X(a) * X(b) + Y(a) * Y(b)
  {
    var c, d := a.coords, b.coords;
    assert SumOfProducts(c[..1], d[..1]) == SumOfProducts(c[..1][..0], d[..1][..0]) + c[0] * d[0];
  }

  lemma Dot3(a: Vector3, b: Vector3)
    ensures Dot(a, b) == X(a) * X(b) + Y(a) * Y(b) + Z(a) * Z(b)
  {
    var c, d := a.coords, b.coords;
    assert c[..2][..1] == c[..1] && d[..2][..1] == d[..1];
    assert SumOfProducts(c[..1], d[..1]) == SumOfProducts(c[..1][..0], d[..1][..0]) + c[0] * d[0];
    assert SumOfProducts(c[..2], d[..2]) == SumOfProducts(c[..1], d[..1]) + c[1] * d[1];
  }

  /** Test-table values for `Dot`. */
  lemma DotExamples()
    ensures Dot(Vec2(5.0, 3.0), Vec2(2.0, 8.0)) == 34.0
    ensures Dot(Vec2(1.0, 0.0), Vec2(0.0, 1.0)) == 0.0
  {
    Dot2(Vec2(5.0, 3.0), Vec2(2.0, 8.0));
    Dot2(Vec2(1.0, 0.0), Vec2(0.0, 1.0));
  }

  /** `Cross2D` is antisymmetric and `(1,0) x (0,1) == 1`. */
  lemma Cross2DProperties(a: Vector2, b: Vector2)
    ensures Cross2D(a, b) == -Cross2D(b, a)
    ensures Cross2D(a, a) == 0.0
    ensures Cross2D(Vec2(1.0, 0.0), Vec2(0.0, 1.0)) == 1.0
  {
  }

  /** `Cross3D` is orthogonal to both arguments, antisymmetric, and `e1 x e2 == e3`. */
  lemma Cross3DProperties(a: Vector3, b: Vector3)
    ensures Dot(Cross3D(a, b), a) == 0.0
    ensures Dot(Cross3D(a, b), b) == 0.0
    ensures Cross3D(b, a) == Neg3Exact(Cross3D(a, b))
    ensures Cross3D(Vec3(1.0, 0.0, 0.0), Vec3(0.0, 1.0, 0.0)) == Vec3(0.0, 0.0, 1.0)
  {
    var c := Cross3D(a, b);
    assert X(c) == Y(a) * Z(b) - Z(a) * Y(b);
    assert Y(c) == Z(a) * X(b) - X(a) * Z(b);
    assert Z(c) == X(a) * Y(b) - Y(a) * X(b);
    Dot3(c, a);
    Dot3(c, b);
    TripleProductZero(X(a), Y(a), Z(a), X(b), Y(b), Z(b));
    TripleProductZero(X(b), Y(b), Z(b), X(a), Y(a), Z(a));
    var ba := Cross3D(b, a);
    Antisymmetric(Y(a), Z(b), Z(a), Y(b));
    Antisymmetric(Z(a), X(b), X(a), Z(b));
    Antisymmetric(X(a), Y(b), Y(a), X(b));
    assert X(ba) == -X(c) && Y(ba) == -Y(c) && Z(ba) == -Z(c);
    assert ba.coords == Neg3Exact(c).coords;
  }

  lemma Antisymmetric(p: real, q: real, u: real, v: real)
    ensures q * u - v * p == -(p * v - u * q)
  {
  }

  /** The scalar identity behind the orthogonality of `Cross3D`: a triple
      product with a repeated vector vanishes. */
  lemma TripleProductZero(u1: real, u2: real, u3: real, v1: real, v2: real, v3: real)
    ensures (u2 * v3 - u3 * v2) * u1 + (u3 * v1 - u1 * v3) * u2 + (u1 * v2 - u2 * v1) * u3 == 0.0
    ensures (u2 * v3 - u3 * v2) * v1 + (u3 * v1 - u1 * v3) * v2 + (u1 * v2 - u2 * v1) * v3 == 0.0
  {
  }

  /** Exact negation of a 3-vector, used to state antisymmetry of `Cross3D`. */
  function Neg3Exact(v: Vector3): Vector3 {
    Vec3(-X(v), -Y(v), -Z(v))
  }

  /** The zero vector can never be normalised, whatever norm is supplied. */
  lemma ZeroCannotBeNormalised(dim: nat, norm: real)
    requires dim >= 2
    requires norm >= 0.0 && norm * norm == Dot(Zero(dim), Zero(dim))
    ensures Normalise(Zero(dim), norm).Failure?
  {
    ZeroIsZero(dim);
    SquareZero(norm);
  }
}

=== FILE: wrappers.dfy ===
/**
 Failure-carrying results standing in for the exceptions the kernel
 throws: `std::out_of_range` from indexing and `std::runtime_error` from
 degenerate constructions and zero-norm normalisation.
 */
module Wrappers {

  datatype Error =
    | OutOfRange(message: string)
    | RuntimeError(message: string)

  datatype Result<+T> = Success(value: T) | Failure(error: Error) {
    predicate IsFailure() {
      Failure?
    }

    function PropagateFailure<U>(): Result<U>
      requires Failure?
    {
      Failure(error)
    }

    function Extract(): T
      requires Success?
    {
      value
    }
  }
}
